=== FILE: README.md ===
# Expense tracker: pure core, modelled in Dafny

This project models the pure logic of a small expense tracker. The tracker has
a browser client (`frontend/assets/app.js`) and a Flask API
(`backend/app/routes.py`). The model proves properties about both.

The browser client parts are:

- `buildTimeSeries`: monthly income, expense and net totals for the charts.
- `collectCategories` and the selection rule of `populateFilter`: the category
  filter.
- `validateForm`: the form check, which reports every failing field.
- `apiUrl` and `API_BASE`: request URL construction.
- The offline fallback of `refreshList`.
- The id lookup of the edit button in `onTableClick`.

The API parts are:

- `validate_expense_payload` in both modes. This includes the Python `float()`
  and `datetime.strptime(..., "%Y-%m-%d")` behaviour it relies on.
- The INSERT values of `create_expense`.
- The SET clause and parameter list of `update_expense`.

Modules, one per file:

| file | module | models |
|---|---|---|
| `wrappers.dfy` | `Wrappers` | `Option` |
| `text.dfy` | `Text` | JavaScript and Python whitespace, `trim`/`strip`, prefix tests, `slice` |
| `sorting.dfy` | `Sorting` | code-unit string order, `Array.prototype.sort` on distinct strings, first-appearance order of `Set`/`Map` |
| `records.dfy` | `Records` | an expense record as the client holds it |
| `timeseries.dfy` | `TimeSeries` | `buildTimeSeries` |
| `listview.dfy` | `ListView` | `collectCategories`, `populateFilter`, the `refreshList` fallback, the edit lookup |
| `formvalidation.dfy` | `FormValidation` | `validateForm` and the `parseFloat` test it uses |
| `apiurl.dfy` | `ApiUrl` | `API_BASE`, `apiUrl` |
| `pyvalues.dfy` | `PyValues` | decoded JSON values, `float()`, `strptime("%Y-%m-%d")` |
| `payload.dfy` | `Payload` | `validate_expense_payload` |
| `routes.dfy` | `Routes` | `create_expense`, `update_expense` up to the SQL call |

Modelling choices:

- Amounts are exact `real` numbers.
- `Number(x.amount)` is represented by the record field `amount: Option<real>`. `None` stands for `NaN`, which `|| 0` turns into zero.
- A missing or `null` string field of a client record is held as `""`. This matters because `(e.date || '')` and `.filter(Boolean)` treat all three alike.
- Browser storage is a parameter: `Some(items)` when the cache holds a list, `None` when it is empty or unreadable. In both branches the source falls back to `[]`.
- A request body is a `map<string, Json>`. `None` stands for a missing body or one that is not JSON, which `request.get_json(silent=True) or {}` turns into `{}`.

## Model

| member | source | states |
|---|---|---|
| `Text.Trim` | frontend/assets/app.js:60-64 | `trim()`/`strip()` gives the empty string exactly when the text is all whitespace, is never longer than the input, and starts and ends with non-whitespace |
| `Text.TrimUnique` | frontend/assets/app.js:60-64 | whitespace padding around text that has no whitespace at its ends trims back to exactly that text |
| `Text.TrimIgnoresPadding` | backend/app/routes.py:68-71 | trimming ignores any extra whitespace added on either side |
| `Text.TrimIdempotent` | backend/app/routes.py:68-71 | trimming a trimmed string changes nothing |
| `Text.Take` | frontend/assets/app.js:174 | `slice(0, 7)` is a prefix of the date, seven characters long or the whole date when shorter, and empty exactly when the date is |
| `Sorting.LessTransitive` | frontend/assets/app.js:181 | the default `sort()` order on strings is transitive |
| `Sorting.LessTotal` | frontend/assets/app.js:181 | the default `sort()` order is total on distinct strings |
| `Sorting.SortDistinct` | frontend/assets/app.js:181 | `sort()` on distinct keys gives a strictly ascending sequence with the same elements and the same length |
| `Sorting.SortedUnique` | frontend/assets/app.js:181 | two strictly ascending sequences with the same elements are equal, so the sorted labels do not depend on insertion order |
| `Sorting.Dedupe` | frontend/assets/app.js:121 | a `Set` built from a sequence holds each element once and exactly the elements of the sequence |
| `TimeSeries.TallyAddsShare` | frontend/assets/app.js:174-179 | one loop step creates the month's entry on first sight, adds the amount (zero when not numeric) to income if the type is `income` and to expense otherwise, and skips undated records |
| `TimeSeries.TallyExtendsTable` | frontend/assets/app.js:173-180 | after each record the map holds exactly the non-empty months seen so far, each with its income and expense sums |
| `TimeSeries.Accumulate` | frontend/assets/app.js:172-180 | the loop leaves a map from every non-empty month to its income and expense sums, each month once |
| `TimeSeries.AccumulateKeyOrder` | frontend/assets/app.js:172-181 | the map's keys, in the order `map.keys()` yields them, are the dated months in order of first appearance |
| `TimeSeries.BuildTimeSeries` | frontend/assets/app.js:170-186 | labels are strictly ascending and exactly the non-empty 7-character date prefixes; the four sequences have equal length; each month's income and expense are the sums over its records; `net[i] = incomes[i] - expenses[i]` |
| `TimeSeries.MonthTotalOutside` | frontend/assets/app.js:174-179 | a month with no records has zero totals |
| `TimeSeries.MonthTotalAppend` | frontend/assets/app.js:173-179 | totals over concatenated record lists add up |
| `TimeSeries.MonthTotalPermutation` | frontend/assets/app.js:173-179 | a month's totals depend only on the multiset of records |
| `TimeSeries.SeriesDeterminedByTotals` | frontend/assets/app.js:181-185 | two inputs with the same months and the same per-month totals give the same series |
| `TimeSeries.BuildTimeSeriesOrderIndependent` | frontend/assets/app.js:170-186 | reordering the records does not change the series |
| `TimeSeries.UndatedRecordIgnored` | frontend/assets/app.js:174-175 | a record with an empty date, anywhere in the input, contributes no month and no amount |
| `TimeSeries.NonNumericAmountIgnored` | frontend/assets/app.js:178-179 | a record whose amount is not a number adds nothing when its month is already present |
| `TimeSeries.OneMonthSeries` | frontend/assets/app.js:170-186 | two records of one month give one label whose income and expense are the sums of their shares |
| `TimeSeries.CoffeeAndSalary` | frontend/assets/app.js:170-186 | a salary of 2000 and a coffee of 4.5 in March 2024 give `["2024-03"]`, `[2000]`, `[4.5]`, `[1995.5]` |
| `ListView.PresentCategories` | frontend/assets/app.js:121 | the distinct categories hold exactly the non-empty categories of the items |
| `ListView.CollectCategories` | frontend/assets/app.js:120-123 | the options start with `""`; the rest are strictly ascending and are exactly the non-empty categories |
| `ListView.CollectCategoriesOrderIndependent` | frontend/assets/app.js:120-123 | item lists with the same elements give the same options |
| `ListView.SelectionAfterPopulate` | frontend/assets/app.js:125-132 | the previous selection is kept exactly when it is `""` or a category of the new items; otherwise the select shows `""`; the selection is always an option |
| `ListView.FallbackRows` | frontend/assets/app.js:164 | with no filter every cached item is shown, and never more items than cached |
| `ListView.FallbackRowsCount` | frontend/assets/app.js:164 | each cached item is shown as often as it is cached when it matches the filter, and never otherwise |
| `ListView.FallbackRowsAppend` | frontend/assets/app.js:164 | the filter keeps the cached order |
| `ListView.ListFallback` | frontend/assets/app.js:153-167 | after a failed fetch the rows are the cached items of the selected category (all items for no filter); options and selection follow from the cached items, and a vanished category resets the filter and shows no rows; the charts use the cached items |
| `ListView.FindById` | frontend/assets/app.js:265 | `find` returns the first index whose id equals the clicked id, or nothing when no item has that id |
| `ListView.EditLookup` | frontend/assets/app.js:263-266 | the edit button finds a cached item exactly when one has the clicked id, and it finds the first such item |
| `FormValidation.FailedChecks` | frontend/assets/app.js:59-64 | each of the four checks is reported exactly when it fails, in the order title, amount, date, category; nothing is reported exactly when the form is valid |
| `FormValidation.RunChecks` | frontend/assets/app.js:60-64 | running checks one after another reports exactly those that fail, and keeps the order in which they run |
| `FormValidation.FormErrors` | frontend/assets/app.js:59-66 | the toast lists one message per failed check, in the order title, amount, date, category, and a check's message appears exactly when that check fails |
| `FormValidation.MessageInjective` | frontend/assets/app.js:60-64 | the four messages are different, so the toast tells which checks failed |
| `FormValidation.ValidateForm` | frontend/assets/app.js:58-70 | the form is accepted exactly when no check fails, which is exactly when there is no error message |
| `FormValidation.EmptyTitleAndBadAmount` | frontend/assets/app.js:58-64 | an empty title and the amount `abc` are both reported, title first |
| `FormValidation.ParseFloatIgnoresLeadingSpace` | frontend/assets/app.js:61-62 | leading whitespace never changes whether `parseFloat` finds a number |
| `FormValidation.ParseFloatSignNeutral` | frontend/assets/app.js:61-62 | one `+` or `-` in front of text that starts with neither whitespace nor a sign does not change whether `parseFloat` finds a number |
| `FormValidation.ParseFloatDigitStart` | frontend/assets/app.js:61-62 | text that starts with a digit is a number for `parseFloat`, whatever follows |
| `FormValidation.ParseFloatReadsPrefix` | frontend/assets/app.js:61-62 | `parseFloat("12abc")` is a number: only a prefix must parse |
| `FormValidation.ParseFloatSkipsSpaceAndSign` | frontend/assets/app.js:61-62 | `parseFloat(" -.5")` is a number |
| `FormValidation.ParseFloatRejectsPoint` | frontend/assets/app.js:61-62 | `parseFloat(".")` is `NaN` |
| `ApiUrl.DropTrailingSlash` | frontend/assets/app.js:6 | removes exactly one trailing slash, if there is one |
| `ApiUrl.ApiBase` | frontend/assets/app.js:5-7 | without a configured value, or with an empty one, the base is `/api`; otherwise it is the configured value, less one trailing slash |
| `ApiUrl.CleanPath` | frontend/assets/app.js:10 | the path gains a leading slash exactly when it has none |
| `ApiUrl.RelativePath` | frontend/assets/app.js:13-18 | the relative join is the base with a leading slash and without one trailing slash (`RootedBase`), followed by the cleaned path; it starts with a slash and ends with the cleaned path |
| `ApiUrl.RootedBase` | frontend/assets/app.js:13-14 | the base gains a leading slash when it has none and then loses one trailing slash, so it is empty or starts with a slash |
| `ApiUrl.NoColonNotAbsolute` | frontend/assets/app.js:11 | a base without a colon never passes the `https?://` test, so it takes the relative branch |
| `ApiUrl.IsAbsoluteExamples` | frontend/assets/app.js:11 | the test ignores case (`HTTPS://…` is absolute) and needs the scheme (`ftp://host` and `//cdn.example/api` are not absolute) |
| `ApiUrl.SetParam` | frontend/assets/app.js:22 | `searchParams.set` appends a pair for a new key and never lengthens the query for a key it already holds; afterwards the query holds the new pair, every pair with another key it held, no other pair with key `k`, and nothing else |
| `ApiUrl.SetParamReplacesFirst` | frontend/assets/app.js:22 | for a key the query holds, the new pair takes the place of the first pair with that key and the pairs before it are unchanged |
| `ApiUrl.ApplyQuery` | frontend/assets/app.js:19-25 | the `forEach` yields at most one pair per parameter; every pair comes from a parameter whose value is given and not empty, and every such parameter's key is in the query |
| `ApiUrl.ApplyQueryIsEmitted` | frontend/assets/app.js:19-25 | the query holds exactly the parameters whose value is neither `undefined` nor `null` nor empty as a string, in input order |
| `ApiUrl.ApiUrl` | frontend/assets/app.js:9-27 | a relative base whose joined path `new URL` keeps as it is (`PlainPath`) points at the page origin, with a path that starts with a slash and ends with the cleaned path, and the query is the emitted parameters; in the corrected absolute branch (see Findings), for a base `new URL` keeps as it is (`PlainBase`) and a bare-path reference (`BareReference`), the base keeps its origin, a path starting with `//` replaces the base path, any other path is joined like a relative base, and the query is the emitted parameters |
| `ApiUrl.DefaultPathPlain` | frontend/assets/app.js:18 | the default base joined with `/expenses` is a path `new URL` keeps as it is |
| `ApiUrl.UnplainPathExamples` | frontend/assets/app.js:18 | a joined path starting with `//` or `/\`, or holding a `..` segment, is not plain: `new URL` would read another host or remove segments |
| `ApiUrl.RelativeJoinNormalizesSlashes` | frontend/assets/app.js:10-18 | for a plain joined path, a leading or trailing slash on the base and a leading slash on the path do not change the URL: base and path are joined by exactly one slash |
| `ApiUrl.DefaultListUrl` | frontend/assets/app.js:153-155 | with nothing configured, the list filtered by `Food` is requested at `/api/expenses?category=Food` on the page origin |
| `ApiUrl.SplitAbsolute` | frontend/assets/app.js:17 | an absolute URL splits into origin and a path that starts with a slash; a URL without a path has the path `/` |
| `ApiUrl.Merge` | frontend/assets/app.js:17 | a reference resolved against a base path that ends in a slash is appended to it |
| `ApiUrl.BaseArgAsWrittenUnchanged` | frontend/assets/app.js:17 | the base replacement in the absolute branch never changes the base |
| `ApiUrl.AbsoluteAsWrittenDropsApiSegment` | frontend/assets/app.js:4-17 | as written, the base `http://localhost:5000/api` sends the list request to `http://localhost:5000/expenses` |
| `ApiUrl.FixedBasePath` | frontend/assets/app.js:17 | appending a slash to an absolute base keeps its origin and leaves its path with exactly one trailing slash |
| `ApiUrl.Resolve` | frontend/assets/app.js:17 | for a bare-path reference, resolution keeps the base's origin; a reference starting with `/` becomes the path and any other non-empty one ends the path |
| `ApiUrl.BareReferenceExamples` | frontend/assets/app.js:17 | `expenses` and `/expenses` are bare references; `https://evil.example/x`, `\evil.example/x` and `//evil.example/x` are not, as they carry a scheme or a host |
| `ApiUrl.LocalBasePlain` | frontend/assets/app.js:4 | the base the comment suggests for local development, `http://localhost:5000/api`, is one `new URL` keeps as it is |
| `ApiUrl.UnplainBaseExamples` | frontend/assets/app.js:17 | a base with a query (`http://h/api?v=2`) or with user info (`http://u@h/api`) is not plain |
| `ApiUrl.UnplainPortExamples` | frontend/assets/app.js:17 | authorities on which `new URL` throws or that it rewrites are not plain: a port that is not a number (`h:x`), one above 65535 (`h:99999`), a second colon (`a:b:c`), and the default port (`h:80`), which serialisation drops |
| `ApiUrl.UnplainHostExamples` | frontend/assets/app.js:17 | an empty host (`:80`), an IPv4 address with a part above 255 (`1.2.3.999`) and a hexadecimal IPv4 part (`0x7f.1`) are not plain hosts |
| `ApiUrl.AbsoluteTargetParts` | frontend/assets/app.js:17 | for a plain base and a bare reference, the corrected absolute branch keeps the base's origin, lets a path starting with `//` replace the base path and joins any other path to it |
| `ApiUrl.AbsoluteTargetKeepsBasePath` | frontend/assets/app.js:17 | with the slash appended, for a plain base and a bare reference, every path not starting with `//` resolves to the base path joined with the path, as in the relative branch |
| `PyValues.FloatOfText` | backend/app/routes.py:18 | `float()` rejects text that is blank for `str.strip`, information separators included, and a negative result needs a leading minus sign once `float()`'s own whitespace is stripped |
| `PyValues.ParseUnsigned` | backend/app/routes.py:18 | an unsigned decimal literal reads as a value that is not negative, and it starts with a digit or a point |
| `PyValues.Magnitude` | backend/app/routes.py:18 | the part after the sign never reads as a negative value, whether it is `inf`, `nan` or digits |
| `PyValues.ParseDecimal` | backend/app/routes.py:18 | a literal reads as a negative value only when it starts with a minus sign |
| `PyValues.FloatOfDigits` | backend/app/routes.py:18 | any run of ASCII digits reads as the number it spells |
| `PyValues.FloatOfNegativeDigits` | backend/app/routes.py:18 | a minus sign followed by digits reads as the negated number |
| `PyValues.PyFloat` | backend/app/routes.py:18 | numbers convert to themselves; `True` and `False` convert to 1 and 0; `null`, lists and objects raise `TypeError` |
| `PyValues.FloatOfIntegerText` | backend/app/routes.py:18 | the decimal text of any natural number, with or without a minus sign, reads back as that number |
| `PyValues.FloatIgnoresPadding` | backend/app/routes.py:18 | whitespace `float()` strips (ASCII tab to carriage return, space, and non-ASCII whitespace) around the text does not change what it reads |
| `PyValues.FloatRejectsInformationSeparator` | backend/app/routes.py:18-22 | `"\x1c5"` strips to `"5"` with `str.strip`, yet `float()` rejects it, so the amount is not a valid number |
| `PyValues.FloatRejectsDoubleUnderscore` | backend/app/routes.py:18 | `1__0` is rejected: every underscore must sit between digits |
| `PyValues.FloatReadsSignedInfinity` | backend/app/routes.py:18-20 | ` -Inf ` reads as negative infinity, which fails the non-negative check |
| `PyValues.FloatMinusZeroNotNegative` | backend/app/routes.py:18-20 | `-0` reads as zero, which passes the non-negative check |
| `PyValues.StrptimeText` | backend/app/routes.py:26 | an accepted string is 8 to 10 characters long with `-` after the four-digit year, and its date exists |
| `PyValues.Strptime` | backend/app/routes.py:23-28 | a value that is not a string is rejected; an accepted one is a real date |
| `PyValues.StrptimeReadsIsoFormat` | backend/app/routes.py:26 | every valid date reads back from its `YYYY-MM-DD` form |
| `PyValues.StrptimeUnpaddedMonth` | backend/app/routes.py:26 | `2024-2-29` is accepted: the month needs no zero |
| `PyValues.StrptimeSpacePaddedDay` | backend/app/routes.py:26 | `2024-03- 5` is accepted: the day may be padded with a space |
| `PyValues.StrptimeRejectsFebruary29In2023` | backend/app/routes.py:26 | `2023-02-29` is rejected: the day must exist |
| `PyValues.StrptimeRejectsTrailingSpace` | backend/app/routes.py:26 | `2024-03-05 ` is rejected: nothing may follow the day |
| `PyValues.StrptimeRejectsYearZero` | backend/app/routes.py:26 | `0000-01-01` is rejected |
| `Payload.AmountError` | backend/app/routes.py:16-22 | a present amount is reported exactly when `float()` fails or gives a negative value; the "valid number" message means `float()` failed, and a negative value gets "Amount must be non-negative." |
| `Payload.RequiredErrors` | backend/app/routes.py:10-15 | the loop reports exactly the required fields that are absent or whitespace-only strings, each with "This field is required." |
| `Payload.ValidatePayload` | backend/app/routes.py:9-29 | every error key is one of title, amount, date and category; each field has exactly the error the later check leaves on it: amount and date errors overwrite the required message, and partial mode has no required check |
| `Payload.AcceptedIffAcceptable` | backend/app/routes.py:9-29 | full validation reports nothing exactly when title and category are present and not blank, the amount reads as a value that is not negative, and the date parses |
| `Payload.PartialIsFullWithoutRequired` | backend/app/routes.py:12-28 | partial validation reports exactly the full-mode errors that are not "required" errors |
| `Payload.PartialNeverRequires` | backend/app/routes.py:12-15 | partial validation never reports a field as required |
| `Payload.UncheckedFieldIgnored` | backend/app/routes.py:10-28 | adding or changing `type`, or any field outside the four checked ones, never changes the errors |
| `Payload.BlankAmountIsNotANumber` | backend/app/routes.py:13-22 | a whitespace amount is reported as "Amount must be a valid number." in both modes, overwriting "required" |
| `Routes.BodyOf` | backend/app/routes.py:54 | a missing or non-JSON body becomes the empty object; any other body is used as it is |
| `Routes.KindOf` | backend/app/routes.py:72 | the stored type is the body's `type` when present and `"expense"` otherwise |
| `Routes.CreateExpense` | backend/app/routes.py:52-79 | a body is rejected with 400 exactly when full validation reports errors, with those errors; an accepted body with a non-string title or category fails; otherwise the row holds the trimmed, non-empty title and category, the non-negative amount `float()` reads, the validated date string and the type or its default |
| `Routes.ResubmittedRowIsInsertedUnchanged` | backend/app/routes.py:62-73 | posting an inserted row back as a new expense inserts the same row |
| `Routes.InsertedRowIsStored` | backend/app/routes.py:62-73 | every inserted row has a trimmed, non-blank title and category, an amount that is not negative and a date `strptime` reads |
| `Routes.StoredRowReinserted` | backend/app/routes.py:52-79 | a row of that shape, posted as a new expense, is inserted unchanged |
| `Routes.CreateIgnoresPadding` | backend/app/routes.py:68 | whitespace around the title does not change the inserted row |
| `Routes.SetItems` | backend/app/routes.py:93 | one `column=%s` item per column, in column order |
| `Routes.PresentColumns` | backend/app/routes.py:91-94 | the loop keeps exactly the listed keys the body holds |
| `Routes.ValueParams` | backend/app/routes.py:94 | one parameter per column: the body's value for that column |
| `Routes.PresentColumnsOrdered` | backend/app/routes.py:91 | the kept columns appear in the fixed order title, amount, date, category, type |
| `Routes.UpdateExpense` | backend/app/routes.py:82-97 | a body is rejected exactly when partial validation reports errors, and gets "No fields to update" exactly when it holds none of the five columns; otherwise the columns are exactly the present ones in fixed order, each parameter is that column's value, and the id is the last parameter |
| `Routes.StatementPlaceholders` | backend/app/routes.py:102 | the statement for columns without `%` in their names holds one `%s` per column and one for the id |
| `Routes.StatementMatchesParams` | backend/app/routes.py:89-102 | the executed statement has exactly as many `%s` placeholders as the parameters passed with it |
| `Routes.UpdateOverwritesPresentFields` | backend/app/routes.py:89-102 | running the planned UPDATE on a stored row overwrites exactly the present updatable fields with the body's values and leaves every other field as it was |
| `Routes.TitleAndAmountStatement` | backend/app/routes.py:89-102 | a body with amount and title, in either order, gives `UPDATE expenses SET title=%s, amount=%s WHERE id=%s` with parameters title, amount, id |

## Left out

- `fetchJSON`, `refreshSummary` and the network half of `refreshList` are left out. So is the request plumbing of `onSubmit` and of the delete button. These are HTTP I/O and async sequencing. A failed fetch is the point where `ListView.ListFallback` starts.
- `cacheSet` and `cacheGet` (browser `localStorage` plus JSON) are left out. The cache content is a parameter.
- `renderRows`, the DOM writes, `toCurrency` (locale formatting), `showToast` and the chart functions are left out, as is the hue rule of the charts. These are UI work and calls into Chart.js. `FormValidation.FormErrors` gives the toast's lines, not the joined text.
- `setForm` is left out: its default date is today's date, which is not deterministic.
- SQL execution, `lastrowid`, `list_expenses`, `delete_expense` and `summary` are left out: the database does the work. The model stops at the statement's columns and parameters.
- `backend/app/__init__.py`, `backend/config.py` and `backend/scripts/init_db.py` are left out: they are Flask and MySQL wiring and environment reading.
- Floating point is left out. Amounts are exact reals, so rounding, overflow to infinity, and underflow to zero are not modelled. In particular a negative amount so small that it rounds to `-0.0` is reported as negative by the model but not by Python.
- Python `float()` raises `OverflowError` on a huge JSON integer. That error escapes the handler and is not modelled. JSON integers and fractions are both `JNumber`.
- JSON `NaN` and `Infinity` literals, which Python's decoder accepts, are left out. A `JNumber` is always finite. The text forms `"nan"` and `"inf"` are modelled.
- `float()` and `strptime` also accept non-ASCII decimal digits, which Python converts first. Only ASCII digits are modelled.
- A JSON body that is an array or a scalar is left out. Its behaviour depends on how `in` and indexing act on that type. Only objects, absent bodies and invalid bodies are modelled.
- In the absolute branch of `apiUrl`, `new URL` is modelled only for a plain base (`PlainBase`): a lower-case `http` or `https` scheme, a host of lower-case letters, digits, dots and hyphens whose last label starts with a letter, an optional port of at most 65535 that is not the default, and a plain path. IPv4 and IPv6 hosts, internationalised (`xn--`) hosts, upper-case hosts, query, fragment, user info, dot segments and percent-encoding are left out, and so is the serialisation of the final URL to a string.
- `ApiUrl.ApiUrl`: in the relative branch the origin and path are stated only for a plain joined path (`PlainPath`). URL parsing treats a joined path that starts with `//` or `/\` as naming another host, reads `\` as `/`, starts the query or fragment at `?` or `#`, removes `.` and `..` segments and percent-encodes other characters. None of this is modelled.
- `ApiUrl.ApiUrl`: the absolute branch computes the evidently intended request, with the base given a trailing slash, not the one `frontend/assets/app.js:17` makes. `ApiUrl.AbsoluteAsWritten` models the code as written (see Findings).
- `ApiUrl.ApiUrl`: for an absolute base, origin, path and query are stated only for a plain base (`PlainBase`) and a bare-path reference (`BareReference`). A reference with a scheme (`https://other/x`), with a backslash, or starting with `//` (a resource path starting with `///`) names another host, and `?`, `#`, dot segments and characters that would be percent-encoded change the path or the query. None of this is modelled. A resource path starting with a single `//` gives a reference `/…`, which keeps the host and replaces the base path; that case is stated.
- `ApiUrl.Resolve`: the contract speaks only of bare-path references. For any other reference the function still keeps the base's origin, which is not what URL parsing does.
- `ApiUrl.ApiUrl`: the page origin is taken to be an `http` or `https` origin. On a page with an opaque origin (a `file:` page or a sandboxed frame), `window.location.origin` is the string `"null"`, `new URL` throws a `TypeError` in `apiUrl`, and `refreshList` calls `apiUrl` before its `try` (frontend/assets/app.js:155), so the error escapes. The model returns a `Url` instead.
- `ListView.SelectionAfterPopulate`: categories are taken to be option values as they are. The source writes them into the HTML without escaping, so a category holding `"` or an `&` entity gives an option with a different value, and keeping such a selection leaves the select at `""`. HTML parsing is not modelled.
- `Object.entries` puts integer-like keys first. The model keeps the caller's order, which is the same for the `category` parameter the client passes.
- `Text.Take`: `slice(0, 7)` counts UTF-16 code units, while the model counts code points. A date with a character outside the Basic Multilingual Plane among its first seven is cut at a different place, and JavaScript may leave a lone surrogate at the end. Only such dates are affected.
- Strings are compared by code point, as in `Sorting.Less`. JavaScript's default `sort()` compares UTF-16 code units, and the two orders differ only for characters outside the Basic Multilingual Plane.

## Findings

| source | as written | input that shows it | evidently intended | confidence | as-written member | corrected member |
|---|---|---|---|---|---|---|
| frontend/assets/app.js:17 | `base.replace(/\/$/, '/')` replaces a trailing slash with a slash, so it never changes the base. URL resolution then drops the last segment of the base path. | `window.API_BASE_URL = "http://localhost:5000/api"` (the configuration the comment at line 4 suggests) and path `/expenses` request `http://localhost:5000/expenses` | the base gets a trailing slash, so the request goes to `http://localhost:5000/api/expenses` | not executed | `ApiUrl.AbsoluteAsWrittenDropsApiSegment` | `ApiUrl.AbsoluteTargetKeepsBasePath` |

The rest of the model (`ApiUrl.ApiUrl`) uses the corrected absolute branch.

=== FILE: apiurl.dfy ===
/** `apiUrl` and `API_BASE` of the browser client: how a request URL is put
    together from the configured base address, a resource path and query
    parameters. */
module ApiUrl {
  import opened Wrappers
  import opened Text

  /** `s.replace(/\/$/, '')`: one trailing slash removed. */
  function DropTrailingSlash(s: string): (r: string)
    ensures EndsWith(s, "/") ==> r + "/" == s
    ensures !EndsWith(s, "/") ==> r == s
  {
    if EndsWith(s, "/") then s[..|s| - 1] else s
  }

  /** `API_BASE`: the configured `window.API_BASE_URL` without one trailing
      slash, or `/api` when nothing (or something falsy) is configured. */
  function ApiBase(configured: Option<string>): (base: string)
    ensures configured.None? || configured == Some("") ==> base == "/api"
    ensures configured.Some? && configured.value != "" && EndsWith(configured.value, "/") ==>
      base + "/" == configured.value
    ensures configured.Some? && configured.value != "" && !EndsWith(configured.value, "/") ==>
      base == configured.value
  {
    match configured
    case Some(s) => if s == "" then "/api" else DropTrailingSlash(s)
    case None => "/api"
  }

  /** `cleanedPath`: the resource path with a leading slash. */
  function CleanPath(path: string): (r: string)
    ensures StartsWith(r, "/")
    ensures r == path || r == "/" + path
  {
    if StartsWith(path, "/") then path else "/" + path
  }

  /** `s` starts with `p` when ASCII letters are compared without case, as
      a regular expression with the `i` flag compares them. */
  predicate StartsWithIgnoringCase(s: string, p: string) {
    |p| <= |s| && forall k :: 0 <= k < |p| ==> LowerAscii(s[k]) == LowerAscii(p[k])
  }

  /** `/^https?:\/\//i.test(base)`. */
  predicate IsAbsolute(base: string) {
    StartsWithIgnoringCase(base, "http://") || StartsWithIgnoringCase(base, "https://")
  }

  /** The base as the relative branch writes it before the path: with a
      leading slash added when it has none, then one trailing slash
      removed. It is empty, or starts with a slash. */
  function RootedBase(base: string): (b: string)
    ensures b == [] || b[0] == '/'
    ensures StartsWith(base, "/") ==> b == DropTrailingSlash(base)
    ensures !StartsWith(base, "/") ==> b == DropTrailingSlash("/" + base)
  {
    var rooted := if StartsWith(base, "/") then base else "/" + base;
    assert rooted[0] == '/';
    DropTrailingSlash(rooted)
  }

  /** The path the relative branch hands to `new URL(..., origin)`: the base
      with a leading slash and without one trailing slash, followed by the
      cleaned path. */
  function RelativePath(base: string, path: string): (p: string)
    ensures StartsWith(p, "/")
    ensures EndsWith(p, CleanPath(path))
    ensures p == RootedBase(base) + CleanPath(path)
  {
    var prefix := RootedBase(base);
    var cleaned := CleanPath(path);
    var p := prefix + cleaned;
    assert p[|p| - |cleaned|..] == cleaned;
    assert p[0] == if prefix == "" then cleaned[0] else prefix[0];
    p
  }

  /** A character a URL path keeps as it is: an ASCII letter or digit, or
      one of `-._~!$&'()*+,;=:@/` (section 3.3 of RFC 3986, without
      percent-encoded triplets). */
  predicate IsPathChar(c: char) {
    ('a' <= c <= 'z') || ('A' <= c <= 'Z') || IsDigit(c) || c in "-._~!$&'()*+,;=:@/"
  }

  /** The segment starting at index `j` is `.` or `..`. */
  predicate DotSegmentAt(s: string, j: nat) {
    && j < |s| && s[j] == '.'
    && (j + 1 == |s| || s[j + 1] == '/' || (s[j + 1] == '.' && (j + 2 == |s| || s[j + 2] == '/')))
  }

  /** A path that URL parsing against an origin keeps as it is: it starts
      with one slash (two would name a host), every character is a plain
      path character (so no `\`, which counts as a slash, no `?` or `#`,
      which start the query and the fragment, and nothing that would be
      percent-encoded), and no segment is `.` or `..`, which would be
      removed. */
  predicate PlainPath(s: string) {
    && StartsWith(s, "/") && !StartsWith(s, "//")
    && (forall k :: 0 <= k < |s| ==> IsPathChar(s[k]))
    && (forall k :: 0 <= k < |s| && s[k] == '/' ==> !DotSegmentAt(s, k + 1))
  }

  /** The default base joined with a resource is plain. */
  lemma DefaultPathPlain(s: string)
    requires s == "/api/expenses"
    ensures PlainPath(s)
  {
    assert s[..2] != "//" by {
      assert s[..2][1] == 'a';
    }
    assert forall k :: 0 <= k < |s| ==> IsPathChar(s[k]);
    assert forall k :: 0 <= k < |s| && s[k] == '/' ==> k == 0 || k == 4;
  }

  /** A base naming another host, one with a backslash and one with a `..`
      segment are not plain, since `new URL` would not keep them as they
      are. */
  lemma UnplainPathExamples(network: string, backslash: string, dots: string)
    requires network == "//cdn.example/api/expenses"
    requires backslash == "/\\cdn.example/api/expenses"
    requires dots == "/a/../b/expenses"
    ensures !PlainPath(network) && !PlainPath(backslash) && !PlainPath(dots)
  {
    assert network[..2] == "//";
    assert !IsPathChar(backslash[1]);
    assert dots[2] == '/' && DotSegmentAt(dots, 3);
  }

  /** A query parameter value as `Object.entries` yields it: `undefined`,
      `null`, or any other value in its `String(v)` form. */
  datatype QueryValue = Undefined | Null | Given(text: string)

  /** Whether `apiUrl` sets the parameter: the value is neither `undefined`
      nor `null` and its string form is not empty. */
  predicate Emitted(v: QueryValue) {
    v.Given? && v.text != ""
  }

  /** The keys of `params`, which come from one object and so are distinct. */
  predicate DistinctKeys(params: seq<(string, QueryValue)>) {
    forall i, j :: 0 <= i < j < |params| ==> params[i].0 != params[j].0
  }

  predicate HasKey(q: seq<(string, string)>, k: string) {
    exists i :: 0 <= i < |q| && q[i].0 == k
  }

  /** `URLSearchParams.set(k, v)`: the first pair with key `k` takes the
      value `v` and later pairs with that key go; without such a pair, one
      is appended. */
  function SetParam(q: seq<(string, string)>, k: string, v: string): (r: seq<(string, string)>)
    ensures !HasKey(q, k) ==> r == q + [(k, v)]
    ensures HasKey(q, k) ==> |r| <= |q|
    ensures (k, v) in r
    ensures forall p :: p in r ==> p in q || p == (k, v)
    ensures forall p :: p in q && p.0 != k ==> p in r
    ensures forall p :: p in r && p.0 == k ==> p == (k, v)
  {
    if q == [] then [(k, v)]
    else if q[0].0 == k then [(k, v)] + RemoveKey(q[1..], k)
    else
      assert HasKey(q, k) <==> HasKey(q[1..], k) by {
        if HasKey(q, k) {
          var i :| 0 <= i < |q| && q[i].0 == k;
          assert q[1..][i - 1].0 == k;
        }
        if HasKey(q[1..], k) {
          var i :| 0 <= i < |q[1..]| && q[1..][i].0 == k;
          assert q[i + 1].0 == k;
        }
      }
      [q[0]] + SetParam(q[1..], k, v)
  }

  /** The new pair takes the place of the first pair with key `k`, and the
      pairs before it stay as they were. */
  lemma {:induction false} SetParamReplacesFirst(q: seq<(string, string)>, k: string, v: string, i: nat)
    requires i < |q| && q[i].0 == k
    requires forall j :: 0 <= j < i ==> q[j].0 != k
    ensures i < |SetParam(q, k, v)|
    ensures SetParam(q, k, v)[..i] == q[..i]
    ensures SetParam(q, k, v)[i] == (k, v)
  {
    if q[0].0 != k {
      var tail := q[1..];
      assert tail[i - 1].0 == k;
      assert forall j :: 0 <= j < i - 1 ==> tail[j] == q[j + 1];
      SetParamReplacesFirst(tail, k, v, i - 1);
      var rest := SetParam(tail, k, v);
      SetParamKeeps(q, k, v);
      var r := [q[0]] + rest;
      assert r[..i] == [q[0]] + rest[..i - 1];
      assert q[..i] == [q[0]] + tail[..i - 1];
    }
  }

  /** A first pair with another key stays in front. */
  lemma SetParamKeeps(q: seq<(string, string)>, k: string, v: string)
    requires q != [] && q[0].0 != k
    ensures SetParam(q, k, v) == [q[0]] + SetParam(q[1..], k, v)
  {
  }

  function RemoveKey(q: seq<(string, string)>, k: string): (r: seq<(string, string)>)
    ensures |r| <= |q|
    ensures forall p :: p in r <==> p in q && p.0 != k
  {
    if q == [] then [] else (if q[0].0 == k then [] else [q[0]]) + RemoveKey(q[1..], k)
  }

  /** The `forEach` over `Object.entries(queryParams)`, starting from the
      empty query of the freshly built URL. */
  function ApplyQuery(params: seq<(string, QueryValue)>): (q: seq<(string, string)>)
    ensures |q| <= |params|
    ensures forall k, s :: (k, s) in q ==> (k, Given(s)) in params && s != ""
    ensures forall i :: 0 <= i < |params| && Emitted(params[i].1) ==> HasKey(q, params[i].0)
  {
    if params == [] then []
    else
      var init, last := params[..|params| - 1], params[|params| - 1];
      assert params == init + [last];
      var q := ApplyQuery(init);
      QueryStep(init, q, last.0, last.1);
      if Emitted(last.1) then SetParam(q, last.0, last.1.text) else q
  }

  /** One step of the `forEach` keeps the three facts `ApplyQuery` states. */
  lemma QueryStep(init: seq<(string, QueryValue)>, q: seq<(string, string)>, k: string, v: QueryValue)
    requires |q| <= |init|
    requires forall key, s :: (key, s) in q ==> (key, Given(s)) in init && s != ""
    requires forall i :: 0 <= i < |init| && Emitted(init[i].1) ==> HasKey(q, init[i].0)
    ensures var params, r := init + [(k, v)], if Emitted(v) then SetParam(q, k, v.text) else q;
      && |r| <= |params|
      && (forall key, s :: (key, s) in r ==> (key, Given(s)) in params && s != "")
      && (forall i :: 0 <= i < |params| && Emitted(params[i].1) ==> HasKey(r, params[i].0))
  {
    var params, r := init + [(k, v)], if Emitted(v) then SetParam(q, k, v.text) else q;
    assert forall p :: p in params <==> p in init || p == (k, v);
    forall i | 0 <= i < |params| && Emitted(params[i].1)
      ensures HasKey(r, params[i].0)
    {
      SetKeepsKeys(init, q, r, k, v, i);
    }
  }

  /** Setting a parameter keeps every key already present and adds its
      own. */
  lemma SetKeepsKeys(init: seq<(string, QueryValue)>, q: seq<(string, string)>, r: seq<(string, string)>,
                     k: string, v: QueryValue, i: nat)
    requires forall j :: 0 <= j < |init| && Emitted(init[j].1) ==> HasKey(q, init[j].0)
    requires r == if Emitted(v) then SetParam(q, k, v.text) else q
    requires i <= |init| && Emitted((init + [(k, v)])[i].1)
    ensures HasKey(r, (init + [(k, v)])[i].0)
  {
    var key := (init + [(k, v)])[i].0;
    if i == |init| {
      assert (k, v.text) in r;
      var j :| 0 <= j < |r| && r[j] == (k, v.text);
    } else {
      assert (init + [(k, v)])[i] == init[i];
      assert HasKey(q, key);
      var j :| 0 <= j < |q| && q[j].0 == key;
      if Emitted(v) && key != k {
        assert q[j] in r;
        var j' :| 0 <= j' < |r| && r[j'] == q[j];
      } else if Emitted(v) {
        assert (k, v.text) in r;
        var j' :| 0 <= j' < |r| && r[j'] == (k, v.text);
      }
    }
  }

  /** The parameters that must appear in the URL: the emitted ones, in
      their original order, with their string values. */
  function EmittedParams(params: seq<(string, QueryValue)>): (r: seq<(string, string)>)
    ensures |r| <= |params|
    ensures forall k, s :: (k, s) in r <==> (k, Given(s)) in params && s != ""
  {
    if params == [] then []
    else
      var init, last := params[..|params| - 1], params[|params| - 1];
      assert forall p :: p in params <==> p in init || p == last;
      EmittedParams(init) + (if Emitted(last.1) then [(last.0, last.1.text)] else [])
  }

  /** Since the keys of an object are distinct, `set` never meets a key
      twice and the query is exactly the emitted parameters, in order. */
  lemma {:induction false} ApplyQueryIsEmitted(params: seq<(string, QueryValue)>)
    requires DistinctKeys(params)
    ensures ApplyQuery(params) == EmittedParams(params)
  {
    if params != [] {
      var init := params[..|params| - 1];
      var (k, v) := params[|params| - 1];
      assert DistinctKeys(init);
      ApplyQueryIsEmitted(init);
      var q := EmittedParams(init);
      assert !HasKey(q, k) by {
        forall i | 0 <= i < |q| ensures q[i].0 != k {
          assert q[i] in q;
          var j :| 0 <= j < |init| && init[j] == (q[i].0, Given(q[i].1));
          assert params[j] == init[j];
        }
      }
    }
  }

  /** The URL `apiUrl` returns, before serialisation: where it points (the
      page's origin in the relative branch, the scheme and authority of the
      base in the absolute one), its path, and its query pairs. */
  datatype Url = Url(origin: string, path: string, query: seq<(string, string)>)

  /** Length of the scheme and `//` of an absolute base. */
  function SchemeLength(base: string): (n: nat)
    requires IsAbsolute(base)
    ensures n <= |base|
  {
    if StartsWithIgnoringCase(base, "http://") then 7 else 8
  }

  /** Index of the first `/` in `s` at or after `from`, or `|s|`. */
  function NextSlash(s: string, from: nat): (i: nat)
    requires from <= |s|
    ensures from <= i <= |s|
    ensures i < |s| ==> s[i] == '/'
    ensures forall k :: from <= k < i ==> s[k] != '/'
    decreases |s| - from
  {
    if from == |s| || s[from] == '/' then from else NextSlash(s, from + 1)
  }

  /** An absolute URL split into scheme and authority (`origin`) and path.
      A URL without a path has the path `/`, as browsers parse it. */
  function SplitAbsolute(base: string): (r: (string, string))
    requires IsAbsolute(base)
    ensures StartsWith(r.1, "/")
    ensures r.0 + r.1 == base || (r.0 == base && r.1 == "/")
  {
    var i := NextSlash(base, SchemeLength(base));
    if i == |base| then (base, "/") else (base[..i], base[i..])
  }

  function PathOf(base: string): string
    requires IsAbsolute(base)
  {
    SplitAbsolute(base).1
  }

  /** Index of the last `/` of a path that has one. */
  function LastSlash(p: string): (i: nat)
    requires StartsWith(p, "/")
    ensures i < |p| && p[i] == '/'
    ensures forall k :: i < k < |p| ==> p[k] != '/'
  {
    if p[|p| - 1] == '/' then |p| - 1
    else
      assert StartsWith(p[..|p| - 1], "/");
      LastSlash(p[..|p| - 1])
  }

  /** Section 5.2.3 of RFC 3986: a relative path is resolved against the
      base path with everything after the base path's last `/` removed. */
  function Merge(basePath: string, ref: string): (r: string)
    requires StartsWith(basePath, "/")
    ensures EndsWith(basePath, "/") ==> r == basePath + ref
  {
    basePath[..LastSlash(basePath) + 1] + ref
  }

  /** Section 5.2.2 of RFC 3986 for a reference that is a bare path: the
      scheme and authority of the base are kept, an empty reference keeps
      the base path, a reference starting with `/` replaces it, and any
      other is merged with it. Other references are outside the model, so
      the contract speaks of bare ones only. */
  function Resolve(base: string, ref: string): (r: (string, string))
    requires IsAbsolute(base)
    ensures BareReference(ref) ==> r.0 == SplitAbsolute(base).0
    ensures BareReference(ref) && StartsWith(ref, "/") ==> r.1 == ref
    ensures BareReference(ref) && ref != "" && !StartsWith(ref, "/") ==> EndsWith(r.1, "/" + ref)
  {
    var (origin, basePath) := SplitAbsolute(base);
    if ref == "" then (origin, basePath)
    else if StartsWith(ref, "/") then (origin, ref)
    else (origin, Merge(basePath, ref))
  }

  /** A reference that section 5.2.2 of RFC 3986 and URL parsing treat as
      a bare path: it does not start with `//` (which names a host), its
      first segment holds no `:` (which would make it a scheme), all its
      characters are plain path characters (so no `\`, `?`, `#` or
      anything percent-encoded), and no segment is `.` or `..`. */
  predicate BareReference(ref: string) {
    && !StartsWith(ref, "//")
    && ':' !in ref[..NextSlash(ref, 0)]
    && (forall k :: 0 <= k < |ref| ==> IsPathChar(ref[k]))
    && !DotSegmentAt(ref, 0)
    && (forall k :: 0 <= k < |ref| && ref[k] == '/' ==> !DotSegmentAt(ref, k + 1))
  }

  /** `expenses` and `/expenses` are bare; a reference with a scheme, a
      backslash or a leading `//` is not, since URL parsing would read a
      scheme or a host from it. */
  lemma BareReferenceExamples(plain: string, scheme: string, backslash: string, network: string)
    requires plain == "expenses" && scheme == "https://evil.example/x"
    requires backslash == "\\evil.example/x" && network == "//evil.example/x"
    ensures BareReference(plain) && BareReference("/" + plain)
    ensures !BareReference(scheme) && !BareReference(backslash) && !BareReference(network)
  {
    assert NextSlash(plain, 0) == |plain|;
    assert forall k :: 0 <= k < |plain| ==> IsPathChar(plain[k]);
    var rooted := "/" + plain;
    assert rooted[..2] != "//" by {
      assert rooted[..2][1] == 'e';
    }
    assert forall k :: 0 <= k < |rooted| ==> IsPathChar(rooted[k]);
    assert forall k :: 0 <= k < |rooted| && rooted[k] == '/' ==> k == 0;
    assert NextSlash(scheme, 0) == 6 by {
      assert scheme[6] == '/';
      assert forall k :: 0 <= k < 6 ==> scheme[k] != '/';
    }
    assert scheme[..6][5] == ':';
    assert !IsPathChar(backslash[0]);
    assert network[..2] == "//";
  }

  /** A host character URL parsing keeps as it is: a lower-case ASCII
      letter, a digit, `.` or `-`. */
  predicate IsHostChar(c: char) {
    ('a' <= c <= 'z') || IsDigit(c) || c in ".-"
  }

  /** Index of the first `c` in `s`, or `|s|`. */
  function FirstIndex(s: string, c: char): (i: nat)
    ensures i <= |s|
    ensures i < |s| ==> s[i] == c
    ensures forall k :: 0 <= k < i ==> s[k] != c
  {
    if s == [] || s[0] == c then 0
    else
      1 + FirstIndex(s[1..], c)
  }

  /** The label after the last `.` of a host: the longest suffix without
      a dot. */
  function LastLabel(h: string): (l: string)
    ensures |l| <= |h| && l == h[|h| - |l|..]
    ensures forall k :: |h| - |l| <= k < |h| ==> h[k] != '.'
    ensures |l| < |h| ==> h[|h| - |l| - 1] == '.'
  {
    if h == [] || h[|h| - 1] == '.' then []
    else
      var init := h[..|h| - 1];
      var l := LastLabel(init) + [h[|h| - 1]];
      assert init[|init| - |l| + 1..] + [h[|h| - 1]] == h[|h| - |l|..];
      l
  }

  /** `FirstIndex` is the only index before which `c` does not occur and
      at which it does (or the end). */
  lemma FirstIndexIs(s: string, c: char, i: nat)
    requires i <= |s| && (i < |s| ==> s[i] == c) && c !in s[..i]
    ensures FirstIndex(s, c) == i
  {
    assert forall k :: 0 <= k < i ==> s[k] != c by {
      forall k | 0 <= k < i ensures s[k] != c {
        assert s[k] == s[..i][k];
      }
    }
  }

  /** `LastLabel` is the only dot-free suffix that is the whole host or
      follows a dot. */
  lemma LastLabelIs(h: string, n: nat)
    requires n <= |h| && '.' !in h[|h| - n..] && (n < |h| ==> h[|h| - n - 1] == '.')
    ensures LastLabel(h) == h[|h| - n..]
  {
    assert forall k :: |h| - n <= k < |h| ==> h[k] != '.' by {
      forall k | |h| - n <= k < |h| ensures h[k] != '.' {
        assert h[k] == h[|h| - n..][k - (|h| - n)];
      }
    }
  }

  /** A domain URL parsing keeps as it is: lower-case letters, digits, dots
      and hyphens; no empty label and no `--`, so no `xn--` label that
      punycode would decode; and a last label starting with a letter, since
      a last label that is a number, or starts with `0x`, makes the host an
      IPv4 address that URL parsing rewrites or rejects. */
  predicate PlainHost(h: string) {
    && h != [] && h[0] != '.'
    && (forall k :: 0 <= k < |h| ==> IsHostChar(h[k]))
    && (forall k :: 0 <= k < |h| - 1 ==> !(h[k] in ".-" && h[k + 1] == h[k]))
    && LastLabel(h) != [] && 'a' <= LastLabel(h)[0] <= 'z'
  }

  /** A port URL parsing keeps as it is: one to five digits without a
      leading zero, a value of at most 65535, and not the scheme's default
      port, which serialisation drops. */
  predicate PlainPort(p: string, default: nat) {
    && 1 <= |p| <= 5 && AllDigits(p) && p[0] != '0'
    && DigitsValue(p) <= 65535 && DigitsValue(p) != default
  }

  /** The port `http` and `https` leave out: 80 and 443. */
  function DefaultPort(base: string): nat
    requires IsAbsolute(base)
  {
    if SchemeLength(base) == 7 then 80 else 443
  }

  /** The host and port of an absolute base, between its `//` and the first
      slash after it. */
  function Authority(base: string): string
    requires IsAbsolute(base)
  {
    base[SchemeLength(base)..NextSlash(base, SchemeLength(base))]
  }

  /** A plain host, optionally followed by `:` and a plain port. */
  predicate PlainAuthority(a: string, default: nat) {
    var i := FirstIndex(a, ':');
    PlainHost(a[..i]) && (i == |a| || PlainPort(a[i + 1..], default))
  }

  /** An absolute base that URL parsing keeps as it is: a lower-case scheme,
      a plain authority (so no user info, no `?`, `#` or `\`, nothing to
      lower-case, no port or IPv4 address that parsing rejects or rewrites)
      and a plain path. */
  predicate PlainBase(base: string) {
    && IsAbsolute(base)
    && (forall k :: 0 <= k < SchemeLength(base) ==> !('A' <= base[k] <= 'Z'))
    && PlainAuthority(Authority(base), DefaultPort(base))
    && PlainPath(PathOf(base))
  }

  /** The base the comment in the client suggests for local development is
      plain. */
  lemma LocalBasePlain(s: string)
    requires s == "http://localhost:5000/api"
    ensures PlainBase(s)
  {
    LocalBaseParts(s);
    LocalAuthorityPlain("localhost:5000");
    ApiPathPlain("/api");
  }

  lemma LocalBaseParts(s: string)
    requires s == "http://localhost:5000/api"
    ensures IsAbsolute(s) && SchemeLength(s) == 7
    ensures forall k :: 0 <= k < 7 ==> !('A' <= s[k] <= 'Z')
    ensures Authority(s) == "localhost:5000" && DefaultPort(s) == 80
    ensures PathOf(s) == "/api"
  {
    assert StartsWithIgnoringCase(s, "http://") by {
      assert forall k :: 0 <= k < 7 ==> s[k] == "http://"[k];
    }
    assert NextSlash(s, 7) == 21 by {
      assert s[21] == '/';
      assert forall k :: 7 <= k < 21 ==> s[k] != '/';
    }
  }

  lemma ApiPathPlain(p: string)
    requires p == "/api"
    ensures PlainPath(p)
  {
    assert p[..2] != "//" by {
      assert p[..2][1] == 'a';
    }
    assert forall k :: 0 <= k < |p| ==> IsPathChar(p[k]);
    assert forall k :: 0 <= k < |p| && p[k] == '/' ==> k == 0;
  }

  lemma LocalAuthorityPlain(a: string)
    requires a == "localhost:5000"
    ensures PlainAuthority(a, 80)
  {
    FirstIndexIs(a, ':', 9);
    LocalHostPlain(a[..9]);
    LocalPortPlain(a[10..]);
  }

  lemma LocalHostPlain(h: string)
    requires h == "localhost"
    ensures PlainHost(h)
  {
    assert forall k :: 0 <= k < |h| ==> IsHostChar(h[k]) && h[k] != '.';
    assert h[|h| - 9..] == h;
    LastLabelIs(h, 9);
  }

  lemma LocalPortPlain(port: string)
    requires port == "5000"
    ensures PlainPort(port, 80)
  {
    assert port == "500" + "0" && "500" == "50" + "0" && "50" == "5" + "0";
    DigitsValueSnoc("5", '0');
    DigitsValueSnoc("50", '0');
    DigitsValueSnoc("500", '0');
  }

  /** The value of digits followed by one more digit. */
  lemma DigitsValueSnoc(s: string, d: char)
    requires AllDigits(s) && IsDigit(d)
    ensures AllDigits(s + [d])
    ensures DigitsValue(s + [d]) == 10 * DigitsValue(s) + DigitValue(d)
  {
    assert (s + [d])[..|s|] == s;
  }

  /** A base with a query, or with user info, is not plain: URL parsing
      would move the query out of the path, or the user info out of the
      host. */
  lemma UnplainBaseExamples(query: string, user: string)
    requires query == "http://h/api?v=2" && user == "http://u@h/api"
    ensures !PlainBase(query) && !PlainBase(user)
  {
    QueryBaseUnplain(query);
    UserBaseUnplain(user);
  }

  lemma QueryBaseUnplain(query: string)
    requires query == "http://h/api?v=2"
    ensures !PlainBase(query)
  {
    assert StartsWithIgnoringCase(query, "http://") by {
      assert forall k :: 0 <= k < 7 ==> query[k] == "http://"[k];
    }
    assert NextSlash(query, 7) == 8 by {
      assert query[8] == '/' && query[7] != '/';
    }
    assert PathOf(query) == query[8..];
    assert !IsPathChar(PathOf(query)[4]);
  }

  lemma UserBaseUnplain(user: string)
    requires user == "http://u@h/api"
    ensures !PlainBase(user)
  {
    assert StartsWithIgnoringCase(user, "http://") by {
      assert forall k :: 0 <= k < 7 ==> user[k] == "http://"[k];
    }
    assert NextSlash(user, 7) == 10 by {
      assert user[10] == '/' && forall k :: 7 <= k < 10 ==> user[k] != '/';
    }
    var a := Authority(user);
    assert a == "u@h";
    FirstIndexIs(a, ':', 3);
    assert !IsHostChar(a[..3][1]);
  }

  /** Ports URL parsing rejects are not plain: one that is not a number,
      one above 65535, and a second colon. The default port is not plain
      either, since serialisation drops it. */
  lemma UnplainPortExamples(word: string, big: string, colons: string, default: string)
    requires word == "h:x" && big == "h:99999" && colons == "a:b:c" && default == "h:80"
    ensures !PlainAuthority(word, 80) && !PlainAuthority(big, 80)
    ensures !PlainAuthority(colons, 80) && !PlainAuthority(default, 80)
  {
    FirstIndexIs(word, ':', 1);
    assert !IsDigit(word[2..][0]);
    FirstIndexIs(colons, ':', 1);
    assert !IsDigit(colons[2..][1]);
    BigPortUnplain(big);
    FirstIndexIs(default, ':', 1);
    assert default[2..] == "8" + "0";
    DigitsValueSnoc("8", '0');
  }

  lemma BigPortUnplain(big: string)
    requires big == "h:99999"
    ensures !PlainAuthority(big, 80)
  {
    FirstIndexIs(big, ':', 1);
    assert big[2..] == "9999" + "9";
    assert "9999" == "999" + "9" && "999" == "99" + "9" && "99" == "9" + "9";
    DigitsValueSnoc("9", '9');
    DigitsValueSnoc("99", '9');
    DigitsValueSnoc("999", '9');
    DigitsValueSnoc("9999", '9');
  }

  /** Hosts URL parsing rejects or rewrites are not plain: an empty one,
      an IPv4 address with a part above 255, and a hexadecimal IPv4 part. */
  lemma UnplainHostExamples(empty: string, ipv4: string, hex: string)
    requires empty == ":80" && ipv4 == "1.2.3.999" && hex == "0x7f.1"
    ensures !PlainAuthority(empty, 80) && !PlainAuthority(ipv4, 80) && !PlainAuthority(hex, 80)
  {
    FirstIndexIs(empty, ':', 0);
    FirstIndexIs(ipv4, ':', |ipv4|);
    assert ipv4[..|ipv4|] == ipv4;
    LastLabelIs(ipv4, 3);
    FirstIndexIs(hex, ':', |hex|);
    assert hex[..|hex|] == hex;
    LastLabelIs(hex, 1);
  }

  /** `cleanedPath.replace(/^\//, '')`: the reference the absolute branch
      resolves. */
  function Reference(path: string): (ref: string)
    ensures "/" + ref == CleanPath(path)
  {
    CleanPath(path)[1..]
  }

  /** `base.replace(/\/$/, '/')` as the absolute branch writes it. */
  function BaseArgAsWritten(base: string): string {
    if EndsWith(base, "/") then base[..|base| - 1] + "/" else base
  }

  /** The replacement swaps a trailing slash for a slash: it never changes
      the base. */
  lemma BaseArgAsWrittenUnchanged(base: string)
    ensures BaseArgAsWritten(base) == base
  {
    if EndsWith(base, "/") {
      assert base == base[..|base| - 1] + [base[|base| - 1]];
    }
  }

  /** The absolute branch as written: origin and path of
      `new URL(ref, BaseArgAsWritten(base))`. */
  function AbsoluteAsWritten(base: string, path: string): (string, string)
    requires IsAbsolute(base)
  {
    BaseArgAsWrittenUnchanged(base);
    Resolve(BaseArgAsWritten(base), Reference(path))
  }

  /** The configuration the source's own comment suggests for local
      development loses its `/api` segment: the list request goes to
      `/expenses` instead of `/api/expenses`. */
  lemma AbsoluteAsWrittenDropsApiSegment()
    ensures ApiBase(Some("http://localhost:5000/api")) == "http://localhost:5000/api"
    ensures IsAbsolute("http://localhost:5000/api")
    ensures AbsoluteAsWritten("http://localhost:5000/api", "/expenses")
      == ("http://localhost:5000", "/expenses")
  {
    ExampleBaseKept("http://localhost:5000/api");
    ExampleBaseSplits();
    ExampleReference("/api", "/expenses");
  }

  /** The base path `/api` has its last slash first, and `/expenses` is
      resolved as `expenses`. */
  lemma ExampleReference(basePath: string, path: string)
    requires basePath == "/api" && path == "/expenses"
    ensures LastSlash(basePath) == 0
    ensures Reference(path) == "expenses"
  {
    assert basePath[..3] == "/ap" && "/ap"[..2] == "/a" && "/a"[..1] == "/";
  }

  /** The suggested base has no trailing slash to drop. */
  lemma ExampleBaseKept(s: string)
    requires s == "http://localhost:5000/api"
    ensures ApiBase(Some(s)) == s
  {
    assert s[|s| - 1] == 'i';
  }

  /** The default base of the page splits after the port. */
  lemma ExampleBaseSplits()
    ensures IsAbsolute("http://localhost:5000/api")
    ensures SplitAbsolute("http://localhost:5000/api") == ("http://localhost:5000", "/api")
  {
    var base := "http://localhost:5000/api";
    assert StartsWithIgnoringCase(base, "http://");
    assert NextSlash(base, 7) == 21 by {
      assert base[21] == '/';
      assert forall k :: 7 <= k < 21 ==> base[k] != '/';
    }
    assert SchemeLength(base) == 7;
    assert base[..21] == "http://localhost:5000" && base[21..] == "/api";
  }

  /** `base` with a slash at the end, which the absolute branch evidently
      meant to produce. */
  function BaseArgFixed(base: string): (b: string)
    ensures EndsWith(b, "/")
    ensures b == base || b == base + "/"
  {
    if EndsWith(base, "/") then base else base + "/"
  }

  /** The absolute branch with the slash appended: origin and path of
      `new URL(ref, BaseArgFixed(base))`. */
  function AbsoluteTarget(base: string, path: string): (r: (string, string))
    requires IsAbsolute(base)
  {
    assert StartsWithIgnoringCase(BaseArgFixed(base), "http://") || StartsWithIgnoringCase(BaseArgFixed(base), "https://");
    Resolve(BaseArgFixed(base), Reference(path))
  }

  /** Appending a slash to a URL does not move its first path slash. */
  lemma NextSlashAppend(s: string, from: nat)
    requires from <= |s|
    ensures NextSlash(s + "/", from) == NextSlash(s, from)
  {
    var t := s + "/";
    var i, j := NextSlash(s, from), NextSlash(t, from);
    assert forall k :: from <= k < |s| ==> t[k] == s[k];
    assert t[|s|] == '/';
    assert j < |s| ==> s[j] == '/';
    assert i < |s| ==> t[i] == '/';
  }

  /** With a slash appended, the base keeps its origin and its path gains
      exactly one trailing slash. */
  lemma FixedBasePath(base: string)
    requires IsAbsolute(base)
    ensures IsAbsolute(BaseArgFixed(base))
    ensures SplitAbsolute(BaseArgFixed(base)).0 == SplitAbsolute(base).0
    ensures PathOf(BaseArgFixed(base)) == DropTrailingSlash(PathOf(base)) + "/"
  {
    FixedBaseScheme(base);
    if EndsWith(base, "/") {
      FixedBaseKept(base);
    } else {
      FixedBaseAppended(base);
    }
  }

  /** A base that already ends in a slash is its own fixed form, and its
      path ends in that slash. */
  lemma FixedBaseKept(base: string)
    requires IsAbsolute(base) && EndsWith(base, "/")
    ensures BaseArgFixed(base) == base
    ensures PathOf(base) == DropTrailingSlash(PathOf(base)) + "/"
  {
    var i := NextSlash(base, SchemeLength(base));
    assert i < |base| ==> base[i..][|base| - i - 1] == base[|base| - 1];
  }

  /** Appending a slash to a base without one moves no slash before it. */
  lemma FixedBaseAppended(base: string)
    requires IsAbsolute(base) && !EndsWith(base, "/")
    requires IsAbsolute(base + "/") && SchemeLength(base + "/") == SchemeLength(base)
    ensures SplitAbsolute(base + "/").0 == SplitAbsolute(base).0
    ensures PathOf(base + "/") == DropTrailingSlash(PathOf(base)) + "/"
  {
    var fixed := base + "/";
    var n := SchemeLength(base);
    var i := NextSlash(base, n);
    NextSlashAppend(base, n);
    if i < |base| {
      assert fixed[..i] == base[..i];
      assert fixed[i..] == base[i..] + "/";
      assert base[i..][|base| - i - 1] == base[|base| - 1];
    }
  }

  /** Appending a slash keeps the scheme. */
  lemma FixedBaseScheme(base: string)
    requires IsAbsolute(base)
    ensures IsAbsolute(BaseArgFixed(base))
    ensures SchemeLength(BaseArgFixed(base)) == SchemeLength(base)
  {
    var fixed := BaseArgFixed(base);
    assert fixed[..|base|] == base;
    assert StartsWithIgnoringCase(fixed, "http://") <==> StartsWithIgnoringCase(base, "http://");
    assert StartsWithIgnoringCase(fixed, "https://") <==> StartsWithIgnoringCase(base, "https://");
  }

  /** A path that does not start with two slashes gives a reference that
      does not start with one. */
  lemma ReferenceUnrooted(path: string)
    requires !StartsWith(path, "//")
    ensures !StartsWith(Reference(path), "/")
  {
    var c := CleanPath(path);
    assert |c| > 1 ==> Reference(path)[0] == c[1];
  }

  /** A reference without a leading slash is appended to the fixed base's
      path. */
  lemma ResolveFixed(base: string, ref: string)
    requires IsAbsolute(base)
    requires !StartsWith(ref, "/")
    ensures IsAbsolute(BaseArgFixed(base))
    ensures Resolve(BaseArgFixed(base), ref)
      == (SplitAbsolute(base).0, DropTrailingSlash(PathOf(base)) + "/" + ref)
  {
    FixedBasePath(base);
    var p := PathOf(BaseArgFixed(base));
    if ref == "" {
      assert p + ref == p;
    } else {
      assert Merge(p, ref) == p + ref;
    }
  }

  /** The relative join of a base that already starts with a slash. */
  lemma RelativePathRooted(b: string, path: string)
    requires StartsWith(b, "/")
    ensures RelativePath(b, path) == DropTrailingSlash(b) + CleanPath(path)
  {
  }

  /** With the slash appended, an absolute base behaves like a relative one:
      the request path is the base's own path followed by the resource
      path, exactly as the relative branch joins them. */
  lemma AbsoluteTargetKeepsBasePath(base: string, path: string)
    requires IsAbsolute(base)
    ensures PlainBase(base) && BareReference(Reference(path)) && !StartsWith(path, "//") ==>
      AbsoluteTarget(base, path) == (SplitAbsolute(base).0, RelativePath(PathOf(base), path))
  {
    if !StartsWith(path, "//") {
      AbsoluteTargetJoins(base, path);
      RelativePathJoins(base, path);
    }
  }

  /** For a plain base and a bare reference, the absolute branch keeps the
      base's origin; a reference starting with `/` replaces the base path
      and any other is joined to it. */
  lemma AbsoluteTargetParts(base: string, path: string)
    requires IsAbsolute(base)
    ensures PlainBase(base) && BareReference(Reference(path)) ==>
      && AbsoluteTarget(base, path).0 == SplitAbsolute(base).0
      && AbsoluteTarget(base, path).1
         == (if StartsWith(path, "//") then Reference(path) else RelativePath(PathOf(base), path))
  {
    if PlainBase(base) && BareReference(Reference(path)) {
      var ref := Reference(path);
      FixedBasePath(base);
      assert AbsoluteTarget(base, path) == Resolve(BaseArgFixed(base), ref);
      if StartsWith(path, "//") {
        ReferenceRooted(path);
      } else {
        AbsoluteTargetKeepsBasePath(base, path);
      }
    }
  }

  /** A path starting with two slashes gives a reference starting with one. */
  lemma ReferenceRooted(path: string)
    requires StartsWith(path, "//")
    ensures StartsWith(Reference(path), "/")
  {
    assert CleanPath(path) == path;
    assert Reference(path)[0] == path[1];
  }

  lemma AbsoluteTargetJoins(base: string, path: string)
    requires IsAbsolute(base)
    requires !StartsWith(path, "//")
    ensures AbsoluteTarget(base, path)
      == (SplitAbsolute(base).0, DropTrailingSlash(PathOf(base)) + ("/" + Reference(path)))
  {
    var ref := Reference(path);
    ReferenceUnrooted(path);
    ResolveFixed(base, ref);
    AppendAssoc(DropTrailingSlash(PathOf(base)), "/", ref);
  }

  lemma AppendAssoc<T>(a: seq<T>, b: seq<T>, c: seq<T>)
    ensures a + b + c == a + (b + c)
  {
  }

  lemma RelativePathJoins(base: string, path: string)
    requires IsAbsolute(base)
    ensures RelativePath(PathOf(base), path) == DropTrailingSlash(PathOf(base)) + ("/" + Reference(path))
  {
    RelativePathRooted(PathOf(base), path);
  }

  /** `apiUrl(path, queryParams)`. The relative branch points at the page's
      origin and joins base and path, which is what `new URL` makes of a
      plain joined path; the absolute branch resolves the path against the
      base, with the base given the trailing slash the code evidently meant
      it to have, which is what `new URL` makes of a plain base and a bare
      reference. In both cases the query then holds exactly the emitted
      parameters in their original order. */
  function ApiUrl(configured: Option<string>, pageOrigin: string, path: string, params: seq<(string, QueryValue)>)
    : (u: Url)
    requires DistinctKeys(params)
    ensures !IsAbsolute(ApiBase(configured)) && PlainPath(RelativePath(ApiBase(configured), path)) ==>
      && u.origin == pageOrigin
      && StartsWith(u.path, "/")
      && EndsWith(u.path, CleanPath(path))
      && u.query == EmittedParams(params)
    ensures PlainBase(ApiBase(configured)) && BareReference(Reference(path)) ==>
      && u.origin == SplitAbsolute(ApiBase(configured)).0
      && u.path == (if StartsWith(path, "//") then Reference(path) else RelativePath(PathOf(ApiBase(configured)), path))
      && u.query == EmittedParams(params)
  {
    var base := ApiBase(configured);
    ApplyQueryIsEmitted(params);
    var query := ApplyQuery(params);
    if IsAbsolute(base) then
      AbsoluteTargetParts(base, path);
      var (origin, p) := AbsoluteTarget(base, path);
      Url(origin, p, query)
    else
      Url(pageOrigin, RelativePath(base, path), query)
  }

  /** Leading and trailing slashes on a relative base, and a leading slash
      on the path, make no difference: for a plain joined path the parts
      are joined by exactly one slash. */
  lemma RelativeJoinNormalizesSlashes(b: string, p: string, origin: string)
    requires b != [] && b[0] != '/' && b[|b| - 1] != '/' && ':' !in b
    requires !StartsWith(p, "/")
    requires PlainPath("/" + b + "/" + p)
    ensures var expected := "/" + b + "/" + p;
      && ApiUrl(Some(b), origin, p, []).path == expected
      && ApiUrl(Some("/" + b), origin, p, []).path == expected
      && ApiUrl(Some(b + "/"), origin, p, []).path == expected
      && ApiUrl(Some("/" + b + "/"), origin, "/" + p, []).path == expected
  {
    var rb := "/" + b;
    assert CleanPath(p) == "/" + p && CleanPath("/" + p) == "/" + p;
    AppendAssoc(rb, "/", p);
    assert ApiBase(Some(b)) == b && ApiBase(Some(rb)) == rb;
    assert ApiBase(Some(b + "/")) == b && ApiBase(Some(rb + "/")) == rb;
    NormalizedUrl(b, b, origin, p);
    NormalizedUrl(rb, b, origin, p);
    NormalizedUrl(b + "/", b, origin, p);
    NormalizedUrl(rb + "/", b, origin, "/" + p);
  }

  /** A relative base that is `b` with at most a leading slash requests
      `/b` followed by the cleaned path. */
  lemma NormalizedUrl(configured: string, b: string, origin: string, path: string)
    requires b != [] && b[0] != '/' && b[|b| - 1] != '/' && ':' !in b
    requires ApiBase(Some(configured)) == b || ApiBase(Some(configured)) == "/" + b
    requires PlainPath("/" + b + CleanPath(path))
    ensures ApiUrl(Some(configured), origin, path, []).path == "/" + b + CleanPath(path)
  {
    var base := ApiBase(Some(configured));
    assert base[|base| - 1] == b[|b| - 1] && ':' !in base;
    JoinedPath(base, path);
    RelativeUrl(configured, origin, path);
  }

  /** The relative branch of `apiUrl` requests the relative join. */
  lemma RelativeUrl(configured: string, origin: string, path: string)
    requires ':' !in ApiBase(Some(configured))
    requires PlainPath(RelativePath(ApiBase(Some(configured)), path))
    ensures ApiUrl(Some(configured), origin, path, []).path == RelativePath(ApiBase(Some(configured)), path)
  {
    NoColonNotAbsolute(ApiBase(Some(configured)));
  }

  /** A base without a trailing slash is joined to the path with the path's
      own leading slash. */
  lemma JoinedPath(b: string, path: string)
    requires b != [] && b[|b| - 1] != '/'
    ensures RelativePath(b, path) == (if b[0] == '/' then b else "/" + b) + CleanPath(path)
  {
    var rooted := if b[0] == '/' then b else "/" + b;
    assert rooted[|rooted| - 1] == b[|b| - 1];
    assert !EndsWith(rooted, "/");
  }

  lemma NoColonNotAbsolute(c: string)
    requires ':' !in c
    ensures !IsAbsolute(c)
  {
    if |c| > 4 {
      assert LowerAscii(c[4]) != LowerAscii("http://"[4]);
    }
    if |c| > 5 {
      assert LowerAscii(c[5]) != LowerAscii("https://"[5]);
    }
  }

  /** The scheme test ignores case and needs `http://` or `https://`:
      a network-path base such as `//cdn.example/api` takes the relative
      branch. */
  lemma IsAbsoluteExamples(upper: string, ftp: string, network: string)
    requires upper == "HTTPS://api.example" && ftp == "ftp://host" && network == "//cdn.example/api"
    ensures IsAbsolute(upper)
    ensures !IsAbsolute(ftp) && !IsAbsolute(network)
  {
    assert StartsWithIgnoringCase(upper, "https://") by {
      assert forall k :: 0 <= k < 8 ==> LowerAscii(upper[k]) == LowerAscii("https://"[k]);
    }
    assert LowerAscii(ftp[0]) != LowerAscii("http://"[0]);
    assert LowerAscii(ftp[0]) != LowerAscii("https://"[0]);
    assert LowerAscii(network[0]) != LowerAscii("http://"[0]);
    assert LowerAscii(network[0]) != LowerAscii("https://"[0]);
  }

  /** With nothing configured, the list request filtered by a category goes
      to `/api/expenses` on the page's origin with one query parameter. */
  lemma DefaultListUrl(origin: string)
    ensures ApiUrl(None, origin, "/expenses", [("category", Given("Food"))])
      == Url(origin, "/api/expenses", [("category", "Food")])
  {
    var params := [("category", Given("Food"))];
    assert ApiBase(None) == "/api";
    DefaultJoin("/api", "/expenses");
    DefaultPathPlain("/api/expenses");
    EmittedFood(params);
    var u := ApiUrl(None, origin, "/expenses", params);
    assert u.origin == origin && u.query == [("category", "Food")];
  }

  lemma DefaultJoin(b: string, p: string)
    requires b == "/api" && p == "/expenses"
    ensures !IsAbsolute(b)
    ensures RelativePath(b, p) == "/api/expenses"
  {
    assert LowerAscii(b[0]) != LowerAscii("http://"[0]);
    assert LowerAscii(b[0]) != LowerAscii("https://"[0]);
    assert StartsWith(b, "/") && !EndsWith(b, "/");
    assert StartsWith(p, "/");
  }

  lemma EmittedFood(params: seq<(string, QueryValue)>)
    requires params == [("category", Given("Food"))]
    ensures EmittedParams(params) == [("category", "Food")]
  {
    assert params[..0] == [];
  }
}

=== FILE: formvalidation.dfy ===
/** `validateForm` of the browser client: the advisory checks run on the
    form before it is submitted. Every failing check is reported, not only
    the first. */
module FormValidation {
  import opened Text

  /** The raw `.value` strings of the form's inputs. */
  datatype Form = Form(title: string, amount: string, date: string, category: string)

  /** The four checks, in the order `validateForm` runs them. */
  datatype Check = TitleCheck | AmountCheck | DateCheck | CategoryCheck

  /** Position of a check in that order. */
  function Rank(c: Check): nat {
    match c
    case TitleCheck => 0
    case AmountCheck => 1
    case DateCheck => 2
    case CategoryCheck => 3
  }

  /** The message each failing check contributes to the alert. */
  function Message(c: Check): string {
    match c
    case TitleCheck => "Title is required"
    case AmountCheck => "Amount must be a number"
    case DateCheck => "Date is required"
    case CategoryCheck => "Category is required"
  }

  /** Whether `parseFloat(s)` yields a number rather than `NaN`. After
      leading whitespace and an optional sign, some prefix of the rest must
      be a decimal literal, which is the case exactly when the rest starts
      with `Infinity`, with a digit, or with a point followed by a digit. */
  predicate ParseFloatIsNumber(s: string) {
    var t := s[LeadingSpaces(s, JsWhitespace)..];
    var u := if |t| > 0 && (t[0] == '+' || t[0] == '-') then t[1..] else t;
    StartsWith(u, "Infinity") || (|u| > 0 && IsDigit(u[0])) || (|u| > 1 && u[0] == '.' && IsDigit(u[1]))
  }

  /** The four checks, stated directly. */
  predicate TitleFails(f: Form) { IsBlank(f.title, JsWhitespace) }
  predicate AmountFails(f: Form) { !ParseFloatIsNumber(f.amount) }
  predicate DateFails(f: Form) { f.date == "" }
  predicate CategoryFails(f: Form) { IsBlank(f.category, JsWhitespace) }

  predicate FormIsValid(f: Form) {
    !TitleFails(f) && !AmountFails(f) && !DateFails(f) && !CategoryFails(f)
  }

  /** A check's failure stated directly. */
  predicate Fails(f: Form, c: Check) {
    match c
    case TitleCheck => TitleFails(f)
    case AmountCheck => AmountFails(f)
    case DateCheck => DateFails(f)
    case CategoryCheck => CategoryFails(f)
  }

  /** The checks in the order `validateForm` runs them. */
  const AllChecks: seq<Check> := [TitleCheck, AmountCheck, DateCheck, CategoryCheck]

  /** A check's failure as `validateForm` tests it: `!title.trim()`,
      `isNaN(parseFloat(amount))`, `!date`, `!category.trim()`. */
  predicate Failing(f: Form, c: Check) {
    match c
    case TitleCheck => Trim(f.title, JsWhitespace) == ""
    case AmountCheck => !ParseFloatIsNumber(f.amount)
    case DateCheck => f.date == ""
    case CategoryCheck => Trim(f.category, JsWhitespace) == ""
  }

  /** The checks that fail, as `validateForm` pushes their messages: every
      failing check and nothing else, in the fixed order title, amount,
      date, category, so the list is empty exactly when the form is valid. */
  function FailedChecks(f: Form): (failed: seq<Check>)
    ensures forall c :: c in failed <==> Fails(f, c)
    ensures failed == [] <==> FormIsValid(f)
    ensures InCheckOrder(failed)
  {
    var failed := RunChecks(f, AllChecks);
    AllChecksInOrder();
    assert forall c :: c in failed <==> Fails(f, c) by {
      forall c ensures Failing(f, c) <==> Fails(f, c) {
        FailingIsFails(f, c);
      }
    }
    assert failed == [] <==> FormIsValid(f) by {
      if failed != [] {
        assert Fails(f, failed[0]);
      } else {
        assert !Fails(f, TitleCheck) && !Fails(f, AmountCheck);
        assert !Fails(f, DateCheck) && !Fails(f, CategoryCheck);
      }
    }
    failed
  }

  /** `validateForm` runs every check, in rank order. */
  lemma AllChecksInOrder()
    ensures InCheckOrder(AllChecks)
    ensures forall c :: c in AllChecks
  {
    forall i, j | 0 <= i < j < |AllChecks| ensures Rank(AllChecks[i]) < Rank(AllChecks[j]) {
      assert Rank(AllChecks[i]) == i && Rank(AllChecks[j]) == j;
    }
    forall c ensures c in AllChecks {
      assert AllChecks[Rank(c)] == c;
    }
  }

  /** The tests `validateForm` writes mean what the checks state. */
  lemma FailingIsFails(f: Form, c: Check)
    ensures Failing(f, c) <==> Fails(f, c)
  {
  }

  /** Running the checks `cs` one after another, pushing each that fails. */
  function RunChecks(f: Form, cs: seq<Check>): (failed: seq<Check>)
    ensures forall c :: c in failed <==> c in cs && Failing(f, c)
    ensures InCheckOrder(cs) ==> InCheckOrder(failed)
  {
    if cs == [] then []
    else
      var here := Push(Failing(f, cs[0]), cs[0]);
      var rest := RunChecks(f, cs[1..]);
      if InCheckOrder(cs) then
        OrderedCons(cs, here, rest);
        here + rest
      else here + rest
  }

  lemma OrderedCons(cs: seq<Check>, here: seq<Check>, rest: seq<Check>)
    requires cs != [] && InCheckOrder(cs)
    requires InCheckOrder(here) && forall x :: x in here ==> x == cs[0]
    requires InCheckOrder(cs[1..]) ==> InCheckOrder(rest)
    requires forall y :: y in rest ==> y in cs[1..]
    ensures InCheckOrder(here + rest)
  {
    var tail := cs[1..];
    assert InCheckOrder(tail) by {
      forall i, j | 0 <= i < j < |tail| ensures Rank(tail[i]) < Rank(tail[j]) {
        assert tail[i] == cs[i + 1] && tail[j] == cs[j + 1];
      }
    }
    forall x, y | x in here && y in rest ensures Rank(x) < Rank(y) {
      var j :| 0 <= j < |tail| && tail[j] == y;
      assert cs[j + 1] == y;
    }
    CheckOrderConcat(here, rest);
  }

  /** `if (failing) errors.push(...)`: the check when it fails. */
  function Push(failing: bool, c: Check): (s: seq<Check>)
    ensures forall x :: x in s <==> failing && x == c
    ensures InCheckOrder(s)
  {
    if failing then [c] else []
  }

  /** Every check comes before the checks of higher rank. */
  predicate InCheckOrder(s: seq<Check>) {
    forall i, j :: 0 <= i < j < |s| ==> Rank(s[i]) < Rank(s[j])
  }

  lemma CheckOrderConcat(a: seq<Check>, b: seq<Check>)
    requires InCheckOrder(a) && InCheckOrder(b)
    requires forall x, y :: x in a && y in b ==> Rank(x) < Rank(y)
    ensures InCheckOrder(a + b)
  {
    forall i, j | 0 <= i < j < |a + b| ensures Rank((a + b)[i]) < Rank((a + b)[j]) {
      if j < |a| {
        assert (a + b)[i] == a[i] && (a + b)[j] == a[j];
      } else if i < |a| {
        assert (a + b)[i] in a && (a + b)[j] in b;
      } else {
        assert (a + b)[i] == b[i - |a|] && (a + b)[j] == b[j - |a|];
      }
    }
  }

  /** The `errors` array of messages, in the order the checks run; distinct
      checks give distinct messages, so no message is lost or repeated. */
  function FormErrors(f: Form): (errors: seq<string>)
    ensures |errors| == |FailedChecks(f)|
    ensures forall c :: Message(c) in errors <==> c in FailedChecks(f)
    ensures forall i :: 0 <= i < |errors| ==> errors[i] == Message(FailedChecks(f)[i])
  {
    var failed := FailedChecks(f);
    var errors := seq(|failed|, i requires 0 <= i < |failed| => Message(failed[i]));
    assert forall c :: Message(c) in errors ==> c in failed by {
      forall c | Message(c) in errors ensures c in failed {
        var i :| 0 <= i < |errors| && errors[i] == Message(c);
        MessageInjective(c, failed[i]);
      }
    }
    assert forall c :: c in failed ==> Message(c) in errors by {
      forall c | c in failed ensures Message(c) in errors {
        var i :| 0 <= i < |failed| && failed[i] == c;
        assert errors[i] == Message(c);
      }
    }
    errors
  }

  /** Different checks have different messages (their first letters differ). */
  lemma MessageInjective(a: Check, b: Check)
    requires Message(a) == Message(b)
    ensures a == b
  {
    assert Message(a)[0] == Message(b)[0];
  }

  /** `validateForm()`: `true` when the form may be submitted, which is
      when it raises no message. */
  function ValidateForm(f: Form): (ok: bool)
    ensures ok <==> FormErrors(f) == []
    ensures ok <==> !TitleFails(f) && !AmountFails(f) && !DateFails(f) && !CategoryFails(f)
  {
    |FailedChecks(f)| == 0
  }

  /** An empty title together with a non-numeric amount yields exactly two
      messages, title first. */
  lemma EmptyTitleAndBadAmount(f: Form)
    requires f == Form("", "abc", "2024-03-02", "Food")
    ensures FailedChecks(f) == [TitleCheck, AmountCheck]
  {
    assert !ParseFloatIsNumber(f.amount) by {
      assert LeadingSpaces(f.amount, JsWhitespace) == 0;
      assert f.amount[0..] == f.amount;
    }
    assert !IsBlank(f.category, JsWhitespace) by {
      assert !IsSpace(f.category[0], JsWhitespace);
    }
    assert forall c :: Fails(f, c) <==> c == TitleCheck || c == AmountCheck;
    TitleThenAmount(FailedChecks(f));
  }

  /** The only list in check order holding exactly the title and amount
      checks. */
  lemma TitleThenAmount(s: seq<Check>)
    requires InCheckOrder(s)
    requires forall c :: c in s <==> c == TitleCheck || c == AmountCheck
    ensures s == [TitleCheck, AmountCheck]
  {
    assert TitleCheck in s && AmountCheck in s;
    var i :| 0 <= i < |s| && s[i] == TitleCheck;
    var last := |s| - 1;
    RankAtLeastIndex(s, last);
    assert s[last] in s && s[0] in s;
    assert Rank(s[0]) <= Rank(s[i]);
  }

  /** In check order, the check at index `k` has rank at least `k`. */
  lemma {:induction false} RankAtLeastIndex(s: seq<Check>, k: nat)
    requires InCheckOrder(s) && k < |s|
    ensures Rank(s[k]) >= k
  {
    if k > 0 {
      RankAtLeastIndex(s, k - 1);
    }
  }

  /** Leading whitespace never changes whether `parseFloat` finds a
      number. */
  lemma ParseFloatIgnoresLeadingSpace(a: string, s: string)
    requires IsBlank(a, JsWhitespace)
    ensures ParseFloatIsNumber(a + s) == ParseFloatIsNumber(s)
  {
    LeadingSpacesAfterBlank(a, s, JsWhitespace);
    var n := LeadingSpaces(s, JsWhitespace);
    assert (a + s)[|a| + n..] == s[n..];
  }

  /** One sign in front of text that starts with neither whitespace nor a
      sign does not change whether `parseFloat` finds a number. */
  lemma ParseFloatSignNeutral(c: char, s: string)
    requires c == '+' || c == '-'
    requires s == [] || (!IsSpace(s[0], JsWhitespace) && s[0] != '+' && s[0] != '-')
    ensures ParseFloatIsNumber([c] + s) == ParseFloatIsNumber(s)
  {
    var t := [c] + s;
    assert LeadingSpaces(t, JsWhitespace) == 0;
    assert t[0..] == t && t[1..] == s;
    assert LeadingSpaces(s, JsWhitespace) == 0;
    assert s[0..] == s;
  }

  /** Text that starts with a digit is always a number for `parseFloat`,
      whatever follows. */
  lemma ParseFloatDigitStart(s: string)
    requires s != [] && IsDigit(s[0])
    ensures ParseFloatIsNumber(s)
  {
    assert !IsSpace(s[0], JsWhitespace);
    assert s[0..] == s;
  }

  /** `parseFloat` reads a numeric prefix: trailing text does not matter. */
  lemma ParseFloatReadsPrefix()
    ensures ParseFloatIsNumber("12abc")
  {
    assert LeadingSpaces("12abc", JsWhitespace) == 0;
    assert "12abc"[0..] == "12abc";
  }

  /** `parseFloat` skips leading whitespace and a sign. */
  lemma ParseFloatSkipsSpaceAndSign()
    ensures ParseFloatIsNumber(" -.5")
  {
    assert " -.5"[1..] == "-.5";
    assert LeadingSpaces("-.5", JsWhitespace) == 0;
    assert LeadingSpaces(" -.5", JsWhitespace) == 1;
    assert "-.5"[1..] == ".5";
  }

  /** A lone point is not a number. */
  lemma ParseFloatRejectsPoint()
    ensures !ParseFloatIsNumber(".")
  {
    assert LeadingSpaces(".", JsWhitespace) == 0;
    assert "."[0..] == ".";
  }
}

=== FILE: listview.dfy ===
/** The list half of the browser client that needs no network: the category
    filter options (`collectCategories`, `populateFilter`), what the table
    shows when the list request fails (`refreshList`), and the record the
    edit button loads into the form (`onTableClick`). */
module ListView {
  import opened Wrappers
  import opened Sorting
  import opened Records

  /** The non-empty categories used by `items`. */
  function Categories(items: seq<Expense>): set<string> {
    set x | x in items && x.category != "" :: x.category
  }

  /** `items.map((x) => x.category).filter(Boolean)`. */
  function PresentCategories(items: seq<Expense>): (r: seq<string>)
    ensures |r| <= |items|
    ensures forall c :: c in r <==> c in Categories(items)
  {
    if items == [] then []
    else
      var init, x := items[..|items| - 1], items[|items| - 1];
      assert forall y :: y in items <==> y in init || y == x;
      PresentCategories(init) + (if x.category != "" then [x.category] else [])
  }

  /** `collectCategories`: the "All Categories" option `""` first, then every
      category in use exactly once, in ascending order. */
  function CollectCategories(items: seq<Expense>): (options: seq<string>)
    ensures |options| >= 1 && options[0] == ""
    ensures StrictlySorted(options[1..])
    ensures forall c :: c in options[1..] <==> c in Categories(items)
    ensures forall c :: c in options <==> c == "" || c in Categories(items)
  {
    var sorted := SortDistinct(Dedupe(PresentCategories(items)));
    assert ([""] + sorted)[1..] == sorted;
    [""] + sorted
  }

  /** The options depend only on which records are present, not on their
      order or on how often each occurs. */
  lemma CollectCategoriesOrderIndependent(a: seq<Expense>, b: seq<Expense>)
    requires forall x :: x in a <==> x in b
    ensures CollectCategories(a) == CollectCategories(b)
  {
    var oa, ob := CollectCategories(a), CollectCategories(b);
    assert Categories(a) == Categories(b);
    SortedUnique(oa[1..], ob[1..]);
    assert oa == [oa[0]] + oa[1..] && ob == [ob[0]] + ob[1..];
  }

  /** The filter value after `populateFilter(items)` rebuilt the options: the
      previous value when it is still an option, otherwise the first option,
      "All Categories". */
  function SelectionAfterPopulate(items: seq<Expense>, current: string): (selected: string)
    ensures selected in CollectCategories(items)
    ensures selected == current <==> current == "" || current in Categories(items)
    ensures selected != current ==> selected == ""
  {
    if current in CollectCategories(items) then current else ""
  }

  /** Whether the table shows `x` while the filter is `cat`. */
  predicate Shown(x: Expense, cat: string) {
    cat == "" || x.category == cat
  }

  /** `cached.filter((x) => !cat || x.category === cat)`. */
  function FallbackRows(cached: seq<Expense>, cat: string): (rows: seq<Expense>)
    ensures |rows| <= |cached|
    ensures cat == "" ==> rows == cached
  {
    if cached == [] then []
    else
      var init, x := cached[..|cached| - 1], cached[|cached| - 1];
      assert cached == init + [x];
      FallbackRows(init, cat) + (if Shown(x, cat) then [x] else [])
  }

  /** The rows are the cached records the filter admits, each as often as
      it is cached. */
  lemma {:induction false} FallbackRowsCount(cached: seq<Expense>, cat: string)
    ensures forall x :: multiset(FallbackRows(cached, cat))[x] == if Shown(x, cat) then multiset(cached)[x] else 0
  {
    if cached != [] {
      var init, y := cached[..|cached| - 1], cached[|cached| - 1];
      assert cached == init + [y];
      FallbackRowsCount(init, cat);
    }
  }

  /** Filtering keeps the relative order of the cached records. */
  lemma {:induction false} FallbackRowsAppend(a: seq<Expense>, b: seq<Expense>, cat: string)
    ensures FallbackRows(a + b, cat) == FallbackRows(a, cat) + FallbackRows(b, cat)
    decreases |b|
  {
    if b == [] {
      assert a + b == a;
    } else {
      var init, x := b[..|b| - 1], b[|b| - 1];
      var ab := a + b;
      assert ab[..|ab| - 1] == a + init;
      assert ab[|ab| - 1] == x;
      var tail := if Shown(x, cat) then [x] else [];
      assert FallbackRows(ab, cat) == FallbackRows(a + init, cat) + tail;
      assert FallbackRows(b, cat) == FallbackRows(init, cat) + tail;
      FallbackRowsAppend(a, init, cat);
    }
  }

  /** What the list view holds after a failed list request. */
  datatype ListState = ListState(
    rows: seq<Expense>,         // the table
    options: seq<string>,       // the filter's options
    selected: string,           // the filter's value
    chartSource: seq<Expense>)  // `cachedAllExpenses`, which the charts read

  /** The `catch` branch of `refreshList`: the cached list (or `[]` when the
      cache holds nothing usable) stands in for the server's answer. The
      table shows the cached records the filter admits, the options come
      from the whole cached list, and the filter keeps its value unless no
      cached record has that category, in which case nothing is shown. */
  function ListFallback(cache: Option<seq<Expense>>, cat: string): (v: ListState)
    ensures var items := cache.GetOr([]);
      && (forall x :: x in v.rows <==> x in items && Shown(x, cat))
      && (cat == "" ==> v.rows == items)
      && (forall c :: c in v.options <==> c == "" || c in Categories(items))
      && (v.selected == cat <==> cat == "" || cat in Categories(items))
      && (v.selected != cat ==> v.selected == "" && v.rows == [])
      && v.chartSource == items
  {
    var items := cache.GetOr([]);
    var rows := FallbackRows(items, cat);
    FallbackRowsCount(items, cat);
    assert forall x :: x in rows <==> x in multiset(rows);
    assert forall x :: x in items <==> x in multiset(items);
    ListState(rows, CollectCategories(items), SelectionAfterPopulate(items, cat), items)
  }

  /** `items.findIndex((x) => String(x.id) === String(id))`, as an option. */
  function FindById(items: seq<Expense>, id: string): (r: Option<nat>)
    ensures r.Some? ==> r.value < |items| && items[r.value].id == id
    ensures r.Some? ==> forall j :: 0 <= j < r.value ==> items[j].id != id
    ensures r.None? <==> forall j :: 0 <= j < |items| ==> items[j].id != id
  {
    if items == [] then None
    else if items[0].id == id then Some(0)
    else
      match FindById(items[1..], id)
      case None => None
      case Some(k) => Some(k + 1)
  }

  /** The edit handler of `onTableClick`: the first cached record whose id
      matches the clicked button's, if any. */
  function EditLookup(cache: Option<seq<Expense>>, id: string): (r: Option<Expense>)
    ensures var items := cache.GetOr([]);
      && (r.Some? <==> exists x :: x in items && x.id == id)
      && (r.Some? ==> r.value in items && r.value.id == id)
      && (r.Some? ==>
            exists k :: 0 <= k < |items| && items[k] == r.value && forall j :: 0 <= j < k ==> items[j].id != id)
  {
    var items := cache.GetOr([]);
    match FindById(items, id)
    case None => None
    case Some(k) => Some(items[k])
  }
}

=== FILE: payload.dfy ===
/** `validate_expense_payload`: the error map the API answers with when an
    expense body is rejected. */
module Payload {
  import opened Wrappers
  import opened Text
  import opened PyValues

  const RequiredMessage := "This field is required."
  const InvalidAmountMessage := "Amount must be a valid number."
  const NegativeAmountMessage := "Amount must be non-negative."
  const DateFormatMessage := "Date must be in YYYY-MM-DD format."

  /** The fields a new expense must carry, in the order they are checked. */
  const RequiredFields: seq<string> := ["title", "amount", "date", "category"]

  /** A decoded JSON object body. */
  type Body = map<string, Json>

  /** The field is absent, or is a string with nothing but whitespace. A
      present value of any other type is not missing. */
  predicate Missing(data: Body, key: string) {
    key !in data || (data[key].JString? && IsBlank(data[key].s, PyWhitespace))
  }

  /** What the `amount` check reports about a present value: `float()`
      failing, or a value below zero. */
  function AmountError(v: Json): (m: Option<string>)
    ensures m.Some? <==> PyFloat(v).None? || IsNegative(PyFloat(v).value)
    ensures m == Some(InvalidAmountMessage) <==> PyFloat(v).None?
    ensures PyFloat(v).Some? && IsNegative(PyFloat(v).value) ==> m == Some(NegativeAmountMessage)
  {
    match PyFloat(v)
    case None => Some(InvalidAmountMessage)
    case Some(f) => if IsNegative(f) then Some(NegativeAmountMessage) else None
  }

  /** The loop over the required fields: each missing one gets the
      required message. */
  function RequiredErrors(data: Body, keys: seq<string>): (errors: map<string, string>)
    ensures forall k :: k in errors <==> k in keys && Missing(data, k)
    ensures forall k :: k in errors ==> errors[k] == RequiredMessage
  {
    if keys == [] then map[]
    else
      var errors := RequiredErrors(data, keys[..|keys| - 1]);
      var k := keys[|keys| - 1];
      assert forall x :: x in keys <==> x in keys[..|keys| - 1] || x == k;
      if Missing(data, k) then errors[k := RequiredMessage] else errors
  }

  /** The error a single field ends up with: the amount and date checks
      run after the required check and overwrite its message. */
  function FieldError(data: Body, partial: bool, key: string): Option<string> {
    if key == "amount" && "amount" in data && AmountError(data["amount"]).Some? then
      AmountError(data["amount"])
    else if key == "date" && "date" in data && Strptime(data["date"]).None? then
      Some(DateFormatMessage)
    else if !partial && key in RequiredFields && Missing(data, key) then
      Some(RequiredMessage)
    else None
  }

  /** `validate_expense_payload(data, partial)`. In full mode every
      required field that is missing is reported; in both modes a present
      amount that is not a number or is negative, and a present date that
      `strptime` rejects, are reported. Every field ends with the error
      `FieldError` gives it, so error keys are always among the required
      fields and `type` is never checked. */
  function ValidatePayload(data: Body, partial: bool): (errors: map<string, string>)
    ensures errors.Keys <= {"title", "amount", "date", "category"}
    ensures forall k :: k in errors <==> FieldError(data, partial, k).Some?
    ensures forall k :: k in errors ==> Some(errors[k]) == FieldError(data, partial, k)
  {
    var required := if partial then map[] else RequiredErrors(data, RequiredFields);
    var withAmount :=
      if "amount" in data then
        match AmountError(data["amount"])
        case Some(m) => required["amount" := m]
        case None => required
      else required;
    if "date" in data && Strptime(data["date"]).None? then
      withAmount["date" := DateFormatMessage]
    else withAmount
  }

  /** A body that full validation accepts: title and category present and
      not blank, an amount `float()` reads as a value that is not negative
      (NaN and infinity included), and a date `strptime` reads. */
  predicate Acceptable(data: Body) {
    && "title" in data && !Missing(data, "title")
    && "category" in data && !Missing(data, "category")
    && "amount" in data && PyFloat(data["amount"]).Some? && !IsNegative(PyFloat(data["amount"]).value)
    && "date" in data && Strptime(data["date"]).Some?
  }

  /** Full validation reports nothing exactly for acceptable bodies. */
  lemma AcceptedIffAcceptable(data: Body)
    ensures ValidatePayload(data, false) == map[] <==> Acceptable(data)
  {
    if Acceptable(data) {
      AcceptableHasNoFieldError(data);
    } else {
      UnacceptableHasFieldError(data);
    }
  }

  lemma AcceptableHasNoFieldError(data: Body)
    requires Acceptable(data)
    ensures ValidatePayload(data, false) == map[]
  {
    var errors := ValidatePayload(data, false);
    forall k
      ensures k !in errors
    {
      NoFieldError(data, k);
    }
    assert errors.Keys == {};
  }

  /** An acceptable body leaves no error on any field. */
  lemma NoFieldError(data: Body, k: string)
    requires Acceptable(data)
    ensures FieldError(data, false, k).None?
  {
    AcceptableAmount(data);
    assert !(k in RequiredFields && Missing(data, k)) by {
      assert k in RequiredFields ==> k == "title" || k == "amount" || k == "date" || k == "category";
    }
  }

  /** The amount of an acceptable body is present and passes its check. */
  lemma AcceptableAmount(data: Body)
    requires Acceptable(data)
    ensures AmountError(data["amount"]).None? && !Missing(data, "amount")
  {
    var amount := data["amount"];
    assert amount.JString? ==> FloatOfText(amount.s).Some?;
  }

  lemma UnacceptableHasFieldError(data: Body)
    requires !Acceptable(data)
    ensures ValidatePayload(data, false) != map[]
  {
    var errors := ValidatePayload(data, false);
    assert "title" in RequiredFields && "category" in RequiredFields;
    assert "amount" in RequiredFields && "date" in RequiredFields;
    if Missing(data, "title") {
      assert "title" in errors;
    } else if Missing(data, "category") {
      assert "category" in errors;
    } else if "amount" !in data || AmountError(data["amount"]).Some? {
      assert "amount" in errors;
    } else {
      assert "date" in errors;
    }
  }

  /** Partial validation reports exactly the errors of full validation
      that are not "required" errors: an amount or date that is present
      but wrong is reported in both modes, a missing field only in full
      mode. */
  lemma PartialIsFullWithoutRequired(data: Body)
    ensures var full := ValidatePayload(data, false);
      ValidatePayload(data, true) == map k | k in full && full[k] != RequiredMessage :: full[k]
  {
    var full := ValidatePayload(data, false);
    var partial := ValidatePayload(data, true);
    var expected := map k | k in full && full[k] != RequiredMessage :: full[k];
    assert InvalidAmountMessage != RequiredMessage && NegativeAmountMessage != RequiredMessage
      && DateFormatMessage != RequiredMessage by {
      assert InvalidAmountMessage[0] != RequiredMessage[0];
      assert NegativeAmountMessage[0] != RequiredMessage[0];
      assert DateFormatMessage[0] != RequiredMessage[0];
    }
    forall k | k in partial
      ensures k in expected && expected[k] == partial[k]
    {
      assert FieldError(data, true, k).Some?;
    }
    forall k | k in expected
      ensures k in partial
    {
      assert FieldError(data, false, k).Some?;
    }
  }

  /** Partial validation never asks for a field. */
  lemma PartialNeverRequires(data: Body, k: string)
    requires k in ValidatePayload(data, true)
    ensures ValidatePayload(data, true)[k] != RequiredMessage
  {
    PartialIsFullWithoutRequired(data);
  }

  /** Fields other than the four checked ones, `type` among them, do not
      affect validation. */
  lemma UncheckedFieldIgnored(data: Body, k: string, v: Json, partial: bool)
    requires k !in RequiredFields
    ensures ValidatePayload(data[k := v], partial) == ValidatePayload(data, partial)
  {
    var d := data[k := v];
    assert forall x :: FieldError(d, partial, x) == FieldError(data, partial, x) by {
      assert forall x :: x in RequiredFields ==> Missing(d, x) == Missing(data, x);
    }
  }

  /** A whitespace amount in a full body is reported as not a number: the
      amount check overwrites the required message. */
  lemma BlankAmountIsNotANumber(data: Body, partial: bool)
    requires "amount" in data && data["amount"].JString? && IsBlank(data["amount"].s, PyWhitespace)
    ensures ValidatePayload(data, partial)["amount"] == InvalidAmountMessage
  {
    assert FieldError(data, partial, "amount") == Some(InvalidAmountMessage);
  }
}

=== FILE: pyvalues.dfy ===
/** The Python side of request validation: the JSON values a request body
    holds, what `float(v)` makes of them, and what
    `datetime.strptime(v, "%Y-%m-%d")` accepts. */
module PyValues {
  import opened Wrappers
  import opened Text

  /** A value decoded from a JSON request body. Numbers are exact. */
  datatype Json =
    | JNull
    | JBool(b: bool)
    | JNumber(n: real)
    | JString(s: string)
    | JArray(items: seq<Json>)
    | JObject(fields: map<string, Json>)

  /** A Python float, with the real number standing for a finite value. */
  datatype FloatValue = Finite(x: real) | Infinity(negative: bool) | NotANumber

  /** `amount < 0` on a Python float; NaN compares false. */
  predicate IsNegative(f: FloatValue) {
    (f.Finite? && f.x < 0.0) || (f.Infinity? && f.negative)
  }

  // ---------------------------------------------------------------------
  // Digits

  function Pow10(n: nat): (p: nat)
    ensures p >= 1
  {
    if n == 0 then 1 else 10 * Pow10(n - 1)
  }

  /** The end of the run of digits starting at `i`. */
  function DigitRun(s: string, i: nat): (j: nat)
    requires i <= |s|
    ensures i <= j <= |s|
    ensures AllDigits(s[i..j])
    ensures j < |s| ==> !IsDigit(s[j])
    decreases |s| - i
  {
    if i == |s| || !IsDigit(s[i]) then i
    else
      var j := DigitRun(s, i + 1);
      assert s[i..j] == [s[i]] + s[i + 1..j];
      j
  }

  /** The digits of `n` without leading zeros (`"0"` for zero), as
      `str(n)` writes them. */
  function NatText(n: nat): (s: string)
    ensures s != [] && AllDigits(s)
    ensures DigitsValue(s) == n
    ensures |s| > 1 ==> s[0] != '0'
  {
    var last := ['0' + (n % 10) as char];
    assert DigitValue(last[0]) == n % 10;
    if n < 10 then last
    else
      var s := NatText(n / 10) + last;
      assert s[..|s| - 1] == NatText(n / 10);
      s
  }

  // ---------------------------------------------------------------------
  // float()

  /** The underscore rule of `float()` on a string: every `_` sits
      between two ASCII digits. */
  predicate UnderscoresBetweenDigits(s: string) {
    forall k :: 0 <= k < |s| && s[k] == '_' ==> 0 < k < |s| - 1 && IsDigit(s[k - 1]) && IsDigit(s[k + 1])
  }

  function RemoveUnderscores(s: string): (r: string)
    ensures '_' !in r
    ensures |r| <= |s|
    ensures '_' !in s ==> r == s
  {
    if s == [] then []
    else if s[0] == '_' then RemoveUnderscores(s[1..])
    else [s[0]] + RemoveUnderscores(s[1..])
  }

  function LowerText(s: string): (r: string)
    ensures |r| == |s|
    ensures forall k :: 0 <= k < |s| ==> r[k] == LowerAscii(s[k])
  {
    if s == [] then [] else [LowerAscii(s[0])] + LowerText(s[1..])
  }

  /** `x * 10^e`. */
  function Scale(x: real, e: int): (y: real)
    ensures x >= 0.0 ==> y >= 0.0
  {
    if e >= 0 then x * Pow10(e) as real else x / Pow10(-e) as real
  }

  /** The digits of a literal with its point dropped, read back with
      `fracLen` of them after the point. */
  function Mantissa(digits: string, fracLen: nat): (m: real)
    requires AllDigits(digits)
    ensures m >= 0.0
  {
    DigitsValue(digits) as real / Pow10(fracLen) as real
  }

  lemma DigitsConcat(a: string, b: string)
    requires AllDigits(a) && AllDigits(b)
    ensures AllDigits(a + b)
  {
    assert forall k :: |a| <= k < |a + b| ==> (a + b)[k] == b[k - |a|];
  }

  /** The exponent part that ends a decimal literal, from index `j`:
      nothing (exponent zero), or `e` or `E`, an optional sign and at least
      one digit reaching the end. */
  function ExponentFrom(r: string, j: nat): (e: Option<int>)
    requires j <= |r|
    ensures j == |r| ==> e == Some(0)
  {
    if j == |r| then Some(0)
    else if r[j] != 'e' && r[j] != 'E' then None
    else
      var signed := j + 1 < |r| && (r[j + 1] == '+' || r[j + 1] == '-');
      var k := if signed then j + 2 else j + 1;
      var m := DigitRun(r, k);
      if m == k || m != |r| then None
      else
        var n: int := DigitsValue(r[k..m]);
        Some(if signed && r[j + 1] == '-' then -n else n)
  }

  /** An unsigned decimal literal: digits, optionally a point and more
      digits (at least one digit in all), optionally an exponent; nothing
      may follow. */
  function ParseUnsigned(r: string): (x: Option<real>)
    ensures x.Some? ==> x.value >= 0.0
    ensures x.Some? ==> r != [] && (IsDigit(r[0]) || r[0] == '.')
  {
    var i := DigitRun(r, 0);
    var point := i < |r| && r[i] == '.';
    var j := if point then DigitRun(r, i + 1) else i;
    var intPart := r[..i];
    var fracPart := if point then r[i + 1..j] else "";
    if |intPart| + |fracPart| == 0 then None
    else
      DigitsConcat(intPart, fracPart);
      var mantissa := Mantissa(intPart + fracPart, |fracPart|);
      match ExponentFrom(r, j)
      case None => None
      case Some(e) => Some(Scale(mantissa, e))
  }

  /** The part of a literal after its sign: `inf`, `infinity` or `nan` in
      any case, or an unsigned decimal literal. */
  function Magnitude(r: string): (f: Option<FloatValue>)
    ensures f.Some? ==> !IsNegative(f.value)
    ensures f.Some? ==> r != [] && MagnitudeStart(r[0])
  {
    var lower := LowerText(r);
    if lower == "inf" || lower == "infinity" then
      assert LowerAscii(r[0]) == lower[0] == 'i';
      Some(Infinity(false))
    else if lower == "nan" then
      assert LowerAscii(r[0]) == lower[0] == 'n';
      Some(NotANumber)
    else
      match ParseUnsigned(r)
      case None => None
      case Some(x) => Some(Finite(x))
  }

  /** A character a magnitude can start with: a digit, a point, or the
      first letter of `inf`, `infinity` or `nan` in either case. */
  predicate MagnitudeStart(c: char) {
    IsDigit(c) || c == '.' || LowerAscii(c) == 'i' || LowerAscii(c) == 'n'
  }

  /** A leading minus sign: the value with its sign flipped. */
  function Negate(f: FloatValue): FloatValue {
    match f
    case Finite(x) => Finite(-x)
    case Infinity(negative) => Infinity(!negative)
    case NotANumber => NotANumber
  }

  /** A literal without underscores or surrounding whitespace: an optional
      sign and a magnitude. */
  function ParseDecimal(u: string): (f: Option<FloatValue>)
    ensures f.Some? && IsNegative(f.value) ==> StartsWith(u, "-")
    ensures f.Some? ==> u != [] && (u[0] == '+' || u[0] == '-' || MagnitudeStart(u[0]))
  {
    if |u| > 0 && u[0] == '-' then
      match Magnitude(u[1..])
      case None => None
      case Some(m) => Some(Negate(m))
    else if |u| > 0 && u[0] == '+' then Magnitude(u[1..])
    else Magnitude(u)
  }

  /** `float(s)` on a string: surrounding `float()` whitespace is ignored,
      the underscore rule is checked, the underscores are dropped and the
      rest must be a decimal literal or an infinity or NaN. `None` is the
      `ValueError`. Text that is blank for `str.strip`, information
      separators included, is rejected, and a negative value needs a minus
      sign after the whitespace. */
  function FloatOfText(s: string): (f: Option<FloatValue>)
    ensures f.Some? ==> !IsBlank(s, PyWhitespace)
    ensures f.Some? && IsNegative(f.value) ==> StartsWith(Trim(s, FloatWhitespace), "-")
  {
    var t := Trim(s, FloatWhitespace);
    if !UnderscoresBetweenDigits(t) then None
    else
      var u := RemoveUnderscores(t);
      var f := ParseDecimal(u);
      if f.Some? then
        UnderscoreFreeStart(t);
        ParsedTextNotBlank(s, t[0]);
        f
      else f
  }

  /** Text whose `float()` trim starts with a character a literal can
      start with holds a character that is not whitespace for `str.strip`. */
  lemma ParsedTextNotBlank(s: string, c: char)
    requires Trim(s, FloatWhitespace) != [] && Trim(s, FloatWhitespace)[0] == c
    requires c == '+' || c == '-' || MagnitudeStart(c)
    ensures !IsBlank(s, PyWhitespace)
  {
    var n := LeadingSpaces(s, FloatWhitespace);
    TrimIsSlice(s, FloatWhitespace);
    assert s[n] == c;
    assert !IsSpace(c, PyWhitespace);
  }

  /** Dropping underscores keeps the first character of a string that obeys
      the underscore rule. */
  lemma UnderscoreFreeStart(t: string)
    requires UnderscoresBetweenDigits(t)
    requires RemoveUnderscores(t) != []
    ensures t != [] && RemoveUnderscores(t)[0] == t[0]
  {
    if t != [] && t[0] == '_' {
      assert false;
    }
  }

  /** `float(v)` on a decoded JSON value: booleans give 1 and 0, numbers
      themselves, strings are parsed, and `null`, arrays and objects raise
      `TypeError` (`None`). */
  function PyFloat(v: Json): (f: Option<FloatValue>)
    ensures v.JNumber? ==> f == Some(Finite(v.n))
    ensures v.JBool? ==> f == Some(Finite(if v.b then 1.0 else 0.0))
    ensures v.JNull? || v.JArray? || v.JObject? ==> f.None?
  {
    match v
    case JBool(b) => Some(Finite(if b then 1.0 else 0.0))
    case JNumber(n) => Some(Finite(n))
    case JString(s) => FloatOfText(s)
    case _ => None
  }

  /** A decimal written with `str(n)`, with or without a minus sign, reads
      back as the same number. */
  lemma FloatOfIntegerText(n: nat)
    ensures FloatOfText(NatText(n)) == Some(Finite(n as real))
    ensures FloatOfText("-" + NatText(n)) == Some(Finite(-(n as real)))
  {
    var s := NatText(n);
    FloatOfDigits(s);
    var t := "-" + s;
    assert t[1..] == s;
    FloatOfNegativeDigits(t);
  }

  /** Digits alone are read as the number they spell. */
  lemma FloatOfDigits(s: string)
    requires s != [] && AllDigits(s)
    ensures FloatOfText(s) == Some(Finite(DigitsValue(s) as real))
  {
    NoSpaceTrim(s);
    FloatOfPlainText(s);
    MagnitudeOfDigits(s);
  }

  /** A minus sign and digits are read as the negated number. */
  lemma FloatOfNegativeDigits(t: string)
    requires |t| > 1 && t[0] == '-' && AllDigits(t[1..])
    ensures FloatOfText(t) == Some(Finite(-(DigitsValue(t[1..]) as real)))
  {
    assert forall k :: 1 <= k < |t| ==> t[k] == t[1..][k - 1];
    NoSpaceTrim(t);
    FloatOfPlainText(t);
    ParseDecimalNegative(t);
  }

  /** Text without whitespace around it or underscores in it is parsed as
      it stands. */
  lemma FloatOfPlainText(t: string)
    requires Trim(t, FloatWhitespace) == t
    requires '_' !in t
    ensures FloatOfText(t) == ParseDecimal(t)
  {
    assert UnderscoresBetweenDigits(t);
    assert RemoveUnderscores(t) == t;
  }

  /** A minus sign and digits parse to the negated number. */
  lemma ParseDecimalNegative(u: string)
    requires |u| > 1 && u[0] == '-' && AllDigits(u[1..])
    ensures ParseDecimal(u) == Some(Finite(-(DigitsValue(u[1..]) as real)))
  {
    MagnitudeOfDigits(u[1..]);
  }

  lemma MagnitudeOfDigits(s: string)
    requires s != [] && AllDigits(s)
    ensures Magnitude(s) == Some(Finite(DigitsValue(s) as real))
  {
    ParseUnsignedDigits(s);
    DigitsAreNoWord(s);
  }

  /** Text starting with a digit is not `inf`, `infinity` or `nan`. */
  lemma DigitsAreNoWord(s: string)
    requires s != [] && IsDigit(s[0])
    ensures LowerText(s) != "inf" && LowerText(s) != "infinity" && LowerText(s) != "nan"
  {
    var l := LowerText(s);
    assert l[0] == s[0];
    assert "inf"[0] == 'i' && "infinity"[0] == 'i' && "nan"[0] == 'n';
  }

  lemma ParseUnsignedDigits(s: string)
    requires s != [] && AllDigits(s)
    ensures ParseUnsigned(s) == Some(DigitsValue(s) as real)
  {
    DigitRunAll(s, 0);
    assert s[..|s|] + "" == s;
    assert ExponentFrom(s, |s|) == Some(0);
    var d := DigitsValue(s) as real;
    assert Pow10(0) == 1;
    assert Mantissa(s, 0) == d by {
      assert d / 1.0 == d;
    }
    assert Scale(d, 0) == d by {
      assert d * 1.0 == d;
    }
  }

  /** A run of digits is read to its end. */
  lemma {:induction false} DigitRunAll(s: string, i: nat)
    requires i <= |s| && forall k :: i <= k < |s| ==> IsDigit(s[k])
    ensures DigitRun(s, i) == |s|
    decreases |s| - i
  {
    if i < |s| {
      DigitRunAll(s, i + 1);
    }
  }

  /** Trimming leaves a string that starts and ends with neither a digit's
      nor a minus sign's whitespace alone. */
  lemma NoSpaceTrim(s: string)
    requires s != [] && forall k :: 0 <= k < |s| ==> IsDigit(s[k]) || s[k] == '-'
    ensures Trim(s, FloatWhitespace) == s
  {
    assert !IsSpace(s[0], FloatWhitespace) && !IsSpace(s[|s| - 1], FloatWhitespace);
    assert [] + s + [] == s;
    TrimUnique([], s, [], FloatWhitespace);
  }

  /** Whitespace around the text makes no difference to `float()`. */
  lemma FloatIgnoresPadding(a: string, s: string, b: string)
    requires IsBlank(a, FloatWhitespace) && IsBlank(b, FloatWhitespace)
    ensures FloatOfText(a + s + b) == FloatOfText(s)
  {
    TrimIgnoresPadding(a, s, b, FloatWhitespace);
  }

  /** An information separator is whitespace for `str.strip` but not for
      `float()`: `"\x1c5"` is rejected although it strips to `"5"`. */
  lemma FloatRejectsInformationSeparator(s: string)
    requires s == "\U{1C}5"
    ensures Trim(s, PyWhitespace) == "5"
    ensures FloatOfText(s).None?
  {
    assert s == s[..1] + "5" + [];
    assert IsBlank(s[..1], PyWhitespace);
    TrimUnique(s[..1], "5", [], PyWhitespace);
    NoSpaceTrimPlain(s);
    assert RemoveUnderscores(s) == s;
    assert !MagnitudeStart(s[0]);
  }

  // ---------------------------------------------------------------------
  // strptime("%Y-%m-%d")

  datatype Date = Date(year: int, month: int, day: int)

  predicate IsLeap(y: int) {
    y % 4 == 0 && (y % 100 != 0 || y % 400 == 0)
  }

  function DaysInMonth(y: int, m: int): (n: int)
    requires 1 <= m <= 12
    ensures 28 <= n <= 31
  {
    if m == 2 then (if IsLeap(y) then 29 else 28)
    else if m == 4 || m == 6 || m == 9 || m == 11 then 30
    else 31
  }

  /** A date `datetime.date` accepts with a four-digit year. */
  predicate ValidDate(d: Date) {
    1 <= d.year <= 9999 && 1 <= d.month <= 12 && 1 <= d.day <= DaysInMonth(d.year, d.month)
  }

  /** The `%m` token `1[0-2]|0[1-9]|[1-9]` read as a whole. */
  function MonthToken(t: string): (m: Option<int>)
    ensures m.Some? ==> 1 <= m.value <= 12
  {
    if |t| == 1 && '1' <= t[0] <= '9' then Some(DigitValue(t[0]))
    else if |t| == 2 && t[0] == '1' && '0' <= t[1] <= '2' then Some(10 + DigitValue(t[1]))
    else if |t| == 2 && t[0] == '0' && '1' <= t[1] <= '9' then Some(DigitValue(t[1]))
    else None
  }

  /** The `%d` token `3[01]|[12]\d|0[1-9]|[1-9]| [1-9]` read as a whole;
      `int()` ignores the leading space of the last form. */
  function DayToken(t: string): (d: Option<int>)
    ensures d.Some? ==> 1 <= d.value <= 31
  {
    if |t| == 1 && '1' <= t[0] <= '9' then Some(DigitValue(t[0]))
    else if |t| != 2 then None
    else if t[0] == '3' && (t[1] == '0' || t[1] == '1') then Some(30 + DigitValue(t[1]))
    else if (t[0] == '1' || t[0] == '2') && IsDigit(t[1]) then Some(10 * DigitValue(t[0]) + DigitValue(t[1]))
    else if (t[0] == '0' || t[0] == ' ') && '1' <= t[1] <= '9' then Some(DigitValue(t[1]))
    else None
  }

  /** Index of the first `-` in `s`, or `|s|`. */
  function FirstDash(s: string): (i: nat)
    ensures i <= |s|
    ensures i < |s| ==> s[i] == '-'
    ensures forall k :: 0 <= k < i ==> s[k] != '-'
  {
    if s == [] || s[0] == '-' then 0 else 1 + FirstDash(s[1..])
  }

  /** `datetime.strptime(s, "%Y-%m-%d")` on a string: four digits, `-`, a
      month token, `-`, a day token, nothing left over, and a day that
      exists in that month and year. Neither token can hold a `-`, so the
      month token runs to the first `-` after the year. */
  function StrptimeText(s: string): (r: Option<Date>)
    ensures r.Some? ==> ValidDate(r.value)
    ensures r.Some? ==> 8 <= |s| <= 10 && s[4] == '-'
  {
    if |s| < 5 || !AllDigits(s[..4]) || s[4] != '-' then None
    else
      var rest := s[5..];
      var i := FirstDash(rest);
      if i == |rest| then None
      else
        var year := DigitsValue(s[..4]);
        assert year <= 9999 by { FourDigits(s[..4]); }
        match (MonthToken(rest[..i]), DayToken(rest[i + 1..]))
        case (Some(m), Some(d)) =>
          if 1 <= year && d <= DaysInMonth(year, m) then Some(Date(year, m, d)) else None
        case _ => None
  }

  /** `datetime.strptime(v, "%Y-%m-%d")` on a decoded JSON value: anything
      but a string raises `TypeError` (`None`). */
  function Strptime(v: Json): (r: Option<Date>)
    ensures !v.JString? ==> r.None?
    ensures r.Some? ==> ValidDate(r.value)
  {
    match v
    case JString(s) => StrptimeText(s)
    case _ => None
  }

  function Pad2(n: nat): (s: string)
    requires n < 100
    ensures |s| == 2 && AllDigits(s)
  {
    ['0' + (n / 10) as char, '0' + (n % 10) as char]
  }

  function Pad4(n: nat): (s: string)
    requires n < 10000
    ensures |s| == 4 && AllDigits(s)
    ensures DigitsValue(s) == n
  {
    var s := Pad2(n / 100) + Pad2(n % 100);
    FourDigits(s);
    s
  }

  lemma FourDigits(s: string)
    requires |s| == 4 && AllDigits(s)
    ensures DigitsValue(s)
      == 1000 * DigitValue(s[0]) + 100 * DigitValue(s[1]) + 10 * DigitValue(s[2]) + DigitValue(s[3])
  {
    assert s[..3][..2] == s[..2] && s[..2][..1] == s[..1] && s[..1][..0] == [];
    assert DigitsValue(s[..1]) == DigitValue(s[0]);
    assert DigitsValue(s[..2]) == 10 * DigitValue(s[0]) + DigitValue(s[1]);
    assert DigitsValue(s[..3]) == 100 * DigitValue(s[0]) + 10 * DigitValue(s[1]) + DigitValue(s[2]);
  }

  /** `date.isoformat()`: `YYYY-MM-DD` with zero padding. */
  function FormatIso(d: Date): (s: string)
    requires ValidDate(d)
    ensures |s| == 10
  {
    Pad4(d.year) + "-" + Pad2(d.month) + "-" + Pad2(d.day)
  }

  lemma MonthTokenPadded(m: int)
    requires 1 <= m <= 12
    ensures MonthToken(Pad2(m)) == Some(m)
  {
  }

  lemma DayTokenPadded(d: int)
    requires 1 <= d <= 31
    ensures DayToken(Pad2(d)) == Some(d)
  {
  }

  /** Every date reads back from its ISO form. */
  lemma StrptimeReadsIsoFormat(d: Date)
    requires ValidDate(d)
    ensures StrptimeText(FormatIso(d)) == Some(d)
  {
    var s := FormatIso(d);
    var rest := s[5..];
    assert s[..4] == Pad4(d.year);
    assert rest == Pad2(d.month) + "-" + Pad2(d.day);
    assert FirstDash(rest) == 2 by {
      assert rest[0] != '-' && rest[1] != '-' && rest[2] == '-';
      assert rest[1..][1..] == rest[2..];
    }
    assert rest[..2] == Pad2(d.month) && rest[3..] == Pad2(d.day);
    MonthTokenPadded(d.month);
    DayTokenPadded(d.day);
  }

  /** The month needs no zero padding. */
  lemma StrptimeUnpaddedMonth()
    ensures StrptimeText("2024-2-29") == Some(Date(2024, 2, 29))
  {
    var s := "2024-2-29";
    assert s[..4] == "2024" && s[5..] == "2-29";
    assert FirstDash("2-29") == 1 by { assert "2-29"[1] == '-'; }
    assert "2-29"[..1] == "2" && "2-29"[2..] == "29";
    FourDigits("2024");
  }

  /** The day may be padded with a space. */
  lemma StrptimeSpacePaddedDay()
    ensures StrptimeText("2024-03- 5") == Some(Date(2024, 3, 5))
  {
    var s := "2024-03- 5";
    assert s[..4] == "2024" && s[5..] == "03- 5";
    assert FirstDash("03- 5") == 2 by { assert "03- 5"[1..] == "3- 5"; }
    assert "03- 5"[..2] == "03" && "03- 5"[3..] == " 5";
    FourDigits("2024");
  }

  /** February 29 exists only in leap years. */
  lemma StrptimeRejectsFebruary29In2023()
    ensures StrptimeText("2023-02-29").None?
  {
    var s := "2023-02-29";
    assert s[..4] == "2023" && s[5..] == "02-29";
    assert FirstDash("02-29") == 2 by { assert "02-29"[1..] == "2-29"; }
    assert "02-29"[..2] == "02" && "02-29"[3..] == "29";
    FourDigits("2023");
  }

  /** Nothing may follow the day. */
  lemma StrptimeRejectsTrailingSpace()
    ensures StrptimeText("2024-03-05 ").None?
  {
    var s := "2024-03-05 ";
    assert s[5..] == "03-05 ";
    assert FirstDash("03-05 ") == 2 by { assert "03-05 "[1..] == "3-05 "; }
    assert "03-05 "[3..] == "05 ";
  }

  /** Year zero does not exist. */
  lemma StrptimeRejectsYearZero()
    ensures StrptimeText("0000-01-01").None?
  {
    assert "0000-01-01"[..4] == "0000";
    FourDigits("0000");
  }

  /** A doubled underscore is rejected. */
  lemma FloatRejectsDoubleUnderscore()
    ensures FloatOfText("1__0").None?
  {
    NoSpaceTrimPlain("1__0");
    assert "1__0"[1] == '_' && !IsDigit("1__0"[2]);
  }

  /** A signed, space-padded infinity in any case is read. */
  lemma FloatReadsSignedInfinity(s: string)
    requires s == " -Inf "
    ensures FloatOfText(s) == Some(Infinity(true))
  {
    var t := s[1..5];
    assert s == s[..1] + t + s[5..];
    assert IsBlank(s[..1], FloatWhitespace) && IsBlank(s[5..], FloatWhitespace);
    FloatIgnoresPadding(s[..1], t, s[5..]);
    NegativeInfinityText(t);
  }

  lemma NegativeInfinityText(t: string)
    requires |t| == 4 && t[0] == '-' && LowerText(t[1..]) == "inf"
    ensures FloatOfText(t) == Some(Infinity(true))
  {
    assert !IsSpace(t[0], FloatWhitespace);
    assert LowerAscii(t[3]) == 'f';
    assert !IsSpace(t[3], FloatWhitespace);
    NoSpaceTrimPlain(t);
    assert forall k :: 0 <= k < 4 ==> t[k] != '_' by {
      assert LowerAscii(t[1]) == 'i' && LowerAscii(t[2]) == 'n';
    }
    FloatOfPlainText(t);
  }

  /** Minus zero is not negative, so it passes a `< 0` check. */
  lemma FloatMinusZeroNotNegative(s: string)
    requires s == "-0"
    ensures FloatOfText(s) == Some(Finite(0.0))
  {
    FloatOfIntegerText(0);
    assert NatText(0) == "0";
    assert s == "-" + NatText(0);
  }

  /** Text whose ends are not whitespace is its own trim. */
  lemma NoSpaceTrimPlain(s: string)
    requires s != [] && !IsSpace(s[0], FloatWhitespace) && !IsSpace(s[|s| - 1], FloatWhitespace)
    ensures Trim(s, FloatWhitespace) == s
  {
    assert [] + s + [] == s;
    TrimUnique([], s, [], FloatWhitespace);
  }
}

=== FILE: records.dfy ===
/** The expense record as the browser client receives it from the list
    endpoint and keeps it in its snapshot cache. */
module Records {
  import opened Wrappers

  /** One record. Text fields that are missing or `null` in the JSON payload
      are held as the empty string, which every rule of the client treats
      the same way. `id` is the record's identifier in its string form
      (`String(x.id)`). `amount` is what `Number(x.amount)` yields: `None`
      stands for `NaN`. `kind` is the record's `type` field. */
  datatype Expense = Expense(
    id: string,
    title: string,
    amount: Option<real>,
    date: string,
    category: string,
    kind: string)
}

=== FILE: routes.dfy ===
/** The request-handling logic of `POST /expenses` and
    `PUT /expenses/<id>` up to the SQL statement: which bodies are
    rejected, what row is inserted, and which columns an update sets. The
    database itself is not modelled. */
module Routes {
  import opened Wrappers
  import opened Text
  import opened PyValues
  import opened Payload

  /** `request.get_json(silent=True) or {}`: a body that is missing or not
      JSON, and an empty object, all become the empty object. */
  function BodyOf(body: Option<Body>): (data: Body)
    ensures body.Some? ==> data == body.value
    ensures body.None? ==> data == map[]
  {
    body.GetOr(map[])
  }

  /** The values the INSERT statement receives: title and category
      trimmed, the amount as `float()` reads it, the date as given, and the
      type as given or `"expense"`. */
  datatype NewRow = NewRow(title: string, amount: FloatValue, date: string, category: string, kind: Json)

  datatype CreateOutcome =
    | CreateRejected(errors: map<string, string>)  // 400 with the error map
    | Insert(row: NewRow)                          // the INSERT, then 201
    | CreateCrash                                  // `.strip()` on a non-string: 500

  /** `data.get("type", "expense")`. */
  function KindOf(data: Body): (kind: Json)
    ensures "type" in data ==> kind == data["type"]
    ensures "type" !in data ==> kind == JString("expense")
  {
    if "type" in data then data["type"] else JString("expense")
  }

  /** `create_expense`. A body full validation rejects is answered with its
      errors. An accepted body whose title or category is present but not
      a string fails on `.strip()`. Otherwise the row holds the trimmed
      title and category, the number the amount reads as, the date string
      and the type, which defaults to `"expense"`. */
  function CreateExpense(body: Option<Body>): (r: CreateOutcome)
    ensures var data := BodyOf(body);
      r.CreateRejected? <==> ValidatePayload(data, false) != map[]
    ensures r.CreateRejected? ==> r.errors == ValidatePayload(BodyOf(body), false)
    ensures var data := BodyOf(body);
      r.CreateCrash? <==> Acceptable(data) && (!data["title"].JString? || !data["category"].JString?)
    ensures var data := BodyOf(body);
      r.Insert? ==>
        && Acceptable(data)
        && data["title"].JString? && r.row.title == Trim(data["title"].s, PyWhitespace)
        && data["category"].JString? && r.row.category == Trim(data["category"].s, PyWhitespace)
        && r.row.title != [] && r.row.category != []
        && Some(r.row.amount) == PyFloat(data["amount"]) && !IsNegative(r.row.amount)
        && data["date"] == JString(r.row.date) && StrptimeText(r.row.date).Some?
        && r.row.kind == KindOf(data)
  {
    var data := BodyOf(body);
    var errors := ValidatePayload(data, false);
    AcceptedIffAcceptable(data);
    if errors != map[] then CreateRejected(errors)
    else if !data["title"].JString? || !data["category"].JString? then CreateCrash
    else
      Insert(NewRow(
        Trim(data["title"].s, PyWhitespace),
        PyFloat(data["amount"]).value,
        data["date"].s,
        Trim(data["category"].s, PyWhitespace),
        KindOf(data)))
  }

  /** The body a stored row would be sent back as. */
  function RowBody(row: NewRow): (data: Body)
    requires row.amount.Finite?
    ensures data.Keys == {"title", "amount", "date", "category", "type"}
  {
    map["title" := JString(row.title), "amount" := JNumber(row.amount.x), "date" := JString(row.date),
        "category" := JString(row.category), "type" := row.kind]
  }

  /** Sending an inserted row back as a new expense inserts the same row:
      trimming is idempotent and the stored values pass validation again. */
  lemma ResubmittedRowIsInsertedUnchanged(body: Option<Body>)
    requires CreateExpense(body).Insert? && CreateExpense(body).row.amount.Finite?
    ensures var row := CreateExpense(body).row;
      CreateExpense(Some(RowBody(row))) == Insert(row)
  {
    InsertedRowIsStored(body);
    StoredRowReinserted(CreateExpense(body).row);
  }

  /** What an inserted row looks like: trimmed, non-blank title and
      category, an amount that is not negative and a date `strptime`
      reads. */
  predicate StoredRow(row: NewRow) {
    && Trim(row.title, PyWhitespace) == row.title && row.title != []
    && Trim(row.category, PyWhitespace) == row.category && row.category != []
    && !IsNegative(row.amount)
    && StrptimeText(row.date).Some?
  }

  lemma InsertedRowIsStored(body: Option<Body>)
    requires CreateExpense(body).Insert?
    ensures StoredRow(CreateExpense(body).row)
  {
    var data := BodyOf(body);
    TrimIdempotent(data["title"].s, PyWhitespace);
    TrimIdempotent(data["category"].s, PyWhitespace);
  }

  lemma StoredRowReinserted(row: NewRow)
    requires StoredRow(row) && row.amount.Finite?
    ensures CreateExpense(Some(RowBody(row))) == Insert(row)
  {
    var again := RowBody(row);
    assert Acceptable(again) by {
      assert again["title"] == JString(row.title) && again["category"] == JString(row.category);
      assert !Missing(again, "title") && !Missing(again, "category");
      assert PyFloat(again["amount"]) == Some(row.amount);
      assert Strptime(again["date"]) == StrptimeText(row.date);
    }
    InsertOfAcceptable(again);
  }

  /** Surrounding whitespace in the title does not change the inserted
      row. */
  lemma CreateIgnoresPadding(data: Body, a: string, b: string)
    requires IsBlank(a, PyWhitespace) && IsBlank(b, PyWhitespace)
    requires CreateExpense(Some(data)).Insert?
    ensures var padded := data["title" := JString(a + data["title"].s + b)];
      CreateExpense(Some(padded)) == CreateExpense(Some(data))
  {
    var title := data["title"].s;
    var padded := data["title" := JString(a + title + b)];
    TrimIgnoresPadding(a, title, b, PyWhitespace);
    assert Acceptable(padded) by {
      assert !Missing(padded, "title") by {
        assert Trim(a + title + b, PyWhitespace) != [];
      }
      assert forall k :: k != "title" ==> (k in padded <==> k in data);
      assert forall k :: k != "title" && k in data ==> padded[k] == data[k];
    }
    InsertOfAcceptable(data);
    InsertOfAcceptable(padded);
  }

  /** The row inserted for an acceptable body with string title and
      category. */
  lemma InsertOfAcceptable(data: Body)
    requires Acceptable(data) && data["title"].JString? && data["category"].JString?
    ensures CreateExpense(Some(data)) == Insert(NewRow(
      Trim(data["title"].s, PyWhitespace), PyFloat(data["amount"]).value, data["date"].s,
      Trim(data["category"].s, PyWhitespace), KindOf(data)))
  {
    AcceptedIffAcceptable(data);
  }

  // ---------------------------------------------------------------------
  // update_expense

  /** The columns an update may set, in the order the SET clause lists
      them. */
  const Updatable: seq<string> := ["title", "amount", "date", "category", "type"]

  /** Position of a column in `Updatable`. */
  function ColumnRank(c: string): (n: nat)
    requires c in Updatable
    ensures n < |Updatable| && Updatable[n] == c
  {
    if c == "title" then 0
    else if c == "amount" then 1
    else if c == "date" then 2
    else if c == "category" then 3
    else 4
  }

  /** A parameter of the UPDATE statement: a value from the body, or the
      row id that closes the WHERE clause. */
  datatype Param = Value(v: Json) | Id(id: nat)

  datatype UpdateOutcome =
    | UpdateRejected(errors: map<string, string>)        // 400 with the error map
    | NoFields                                           // 400 "No fields to update"
    | Update(columns: seq<string>, params: seq<Param>)   // the UPDATE, then 200

  /** One `column=%s` item of the SET clause. */
  function SetItem(c: string): string {
    c + "=%s"
  }

  /** The items of the SET clause, joined by `", "` in the statement. */
  function SetItems(columns: seq<string>): (items: seq<string>)
    ensures |items| == |columns|
    ensures forall i :: 0 <= i < |columns| ==> items[i] == SetItem(columns[i])
  {
    if columns == [] then [] else [SetItem(columns[0])] + SetItems(columns[1..])
  }

  /** The loop over `Updatable`: the keys the body holds, in order. */
  function PresentColumns(data: Body, keys: seq<string>): (columns: seq<string>)
    ensures |columns| <= |keys|
    ensures forall c :: c in columns <==> c in keys && c in data
    ensures (forall c :: c in keys ==> c !in data) ==> columns == []
  {
    if keys == [] then []
    else if keys[0] in data then [keys[0]] + PresentColumns(data, keys[1..])
    else PresentColumns(data, keys[1..])
  }

  function ValueParams(data: Body, columns: seq<string>): (params: seq<Param>)
    requires forall c :: c in columns ==> c in data
    ensures |params| == |columns|
    ensures forall i :: 0 <= i < |columns| ==> params[i] == Value(data[columns[i]])
  {
    if columns == [] then [] else [Value(data[columns[0]])] + ValueParams(data, columns[1..])
  }

  /** Columns listed in strictly increasing rank: distinct, and in the
      fixed order of `Updatable`. */
  predicate InColumnOrder(columns: seq<string>) {
    && (forall i :: 0 <= i < |columns| ==> columns[i] in Updatable)
    && (forall i, j :: 0 <= i < j < |columns| ==> ColumnRank(columns[i]) < ColumnRank(columns[j]))
  }

  /** `PresentColumns` keeps the order of the list it walks. */
  lemma {:induction false} PresentColumnsOrdered(data: Body, keys: seq<string>)
    requires |keys| <= |Updatable| && keys == Updatable[|Updatable| - |keys|..]
    ensures InColumnOrder(PresentColumns(data, keys))
    ensures forall c :: c in PresentColumns(data, keys) ==> ColumnRank(c) >= |Updatable| - |keys|
  {
    if keys != [] {
      var rest := keys[1..];
      assert rest == Updatable[|Updatable| - |rest|..];
      PresentColumnsOrdered(data, rest);
      assert ColumnRank(keys[0]) == |Updatable| - |keys|;
    }
  }

  /** `update_expense(expense_id)`. A body partial validation rejects is
      answered with its errors; a body with none of the updatable keys is
      answered with "No fields to update". Otherwise the SET clause lists
      exactly the updatable keys the body holds, in the fixed order title,
      amount, date, category, type; each parameter is that key's value, and
      the id comes last for the WHERE clause. */
  function UpdateExpense(id: nat, body: Option<Body>): (r: UpdateOutcome)
    ensures var data := BodyOf(body);
      r.UpdateRejected? <==> ValidatePayload(data, true) != map[]
    ensures r.UpdateRejected? ==> r.errors == ValidatePayload(BodyOf(body), true)
    ensures var data := BodyOf(body);
      r.NoFields? <==> ValidatePayload(data, true) == map[] && forall c :: c in Updatable ==> c !in data
    ensures var data := BodyOf(body);
      r.Update? ==>
        && r.columns != []
        && InColumnOrder(r.columns)
        && (forall c :: c in r.columns <==> c in Updatable && c in data)
        && |r.params| == |r.columns| + 1
        && (forall i :: 0 <= i < |r.columns| ==> r.params[i] == Value(data[r.columns[i]]))
        && r.params[|r.columns|] == Id(id)
  {
    var data := BodyOf(body);
    var errors := ValidatePayload(data, true);
    if errors != map[] then UpdateRejected(errors)
    else
      var columns := PresentColumns(data, Updatable);
      if columns == [] then NoFields
      else
        assert Updatable == Updatable[|Updatable| - |Updatable|..];
        PresentColumnsOrdered(data, Updatable);
        Update(columns, ValueParams(data, columns) + [Id(id)])
  }

  /** The UPDATE statement for a plan. */
  function UpdateStatement(columns: seq<string>): string {
    "UPDATE expenses SET " + Join(SetItems(columns), ", ") + " WHERE id=%s"
  }

  function Join(items: seq<string>, sep: string): string {
    if items == [] then ""
    else if |items| == 1 then items[0]
    else items[0] + sep + Join(items[1..], sep)
  }

  /** How often `c` occurs in `s`. */
  function Occurrences(s: string, c: char): nat {
    if s == [] then 0 else (if s[0] == c then 1 else 0) + Occurrences(s[1..], c)
  }

  lemma {:induction false} OccurrencesAppend(a: string, b: string, c: char)
    ensures Occurrences(a + b, c) == Occurrences(a, c) + Occurrences(b, c)
  {
    if a == [] {
      assert a + b == b;
    } else {
      assert (a + b)[0] == a[0] && (a + b)[1..] == a[1..] + b;
      OccurrencesAppend(a[1..], b, c);
    }
  }

  /** A `column=%s` item holds one `%` more than its column name. */
  lemma ItemPlaceholder(col: string)
    ensures Occurrences(SetItem(col), '%') == Occurrences(col, '%') + 1
  {
    OccurrencesAppend(col, "=%s", '%');
    assert "=%s"[1..] == "%s" && "%s"[1..] == "s" && "s"[1..] == [];
  }

  /** The SET clause of columns without `%` in their names holds one `%`
      per column. */
  lemma {:induction false} SetClausePlaceholders(columns: seq<string>)
    requires forall i :: 0 <= i < |columns| ==> Occurrences(columns[i], '%') == 0
    ensures Occurrences(Join(SetItems(columns), ", "), '%') == |columns|
  {
    if columns != [] {
      var items := SetItems(columns);
      ItemPlaceholder(columns[0]);
      if |columns| > 1 {
        assert items[1..] == SetItems(columns[1..]);
        SetClausePlaceholders(columns[1..]);
        OccurrencesAppend(items[0] + ", ", Join(items[1..], ", "), '%');
        OccurrencesAppend(items[0], ", ", '%');
        assert ", "[1..] == " " && " "[1..] == [];
      }
    }
  }

  /** No updatable column name holds a `%`. */
  lemma UpdatableWithoutPercent(c: string)
    requires c in Updatable
    ensures Occurrences(c, '%') == 0
  {
    assert '%' !in c;
    NoOccurrences(c, '%');
  }

  lemma {:induction false} NoOccurrences(s: string, c: char)
    requires c !in s
    ensures Occurrences(s, c) == 0
  {
    if s != [] {
      assert s[0] in s;
      assert forall x :: x in s[1..] ==> x in s;
      NoOccurrences(s[1..], c);
    }
  }

  /** The statement `update_expense` executes has exactly one `%s`
      placeholder per parameter it passes: one per present column and one
      for the id. */
  lemma StatementMatchesParams(id: nat, body: Option<Body>)
    requires UpdateExpense(id, body).Update?
    ensures var u := UpdateExpense(id, body);
      Occurrences(UpdateStatement(u.columns), '%') == |u.params|
  {
    var columns := UpdateExpense(id, body).columns;
    forall i | 0 <= i < |columns|
      ensures Occurrences(columns[i], '%') == 0
    {
      UpdatableWithoutPercent(columns[i]);
    }
    StatementPlaceholders(columns);
  }

  /** The statement for columns without `%` in their names holds one `%`
      per column and one for the id. */
  lemma StatementPlaceholders(columns: seq<string>)
    requires forall i :: 0 <= i < |columns| ==> Occurrences(columns[i], '%') == 0
    ensures Occurrences(UpdateStatement(columns), '%') == |columns| + 1
  {
    SetClausePlaceholders(columns);
    var head, clause, tail := "UPDATE expenses SET ", Join(SetItems(columns), ", "), " WHERE id=%s";
    OccurrencesAppend(head + clause, tail, '%');
    OccurrencesAppend(head, clause, '%');
    HeadPlaceholders(head);
    TailPlaceholders(tail);
  }

  /** The fixed text before the SET clause holds no `%`. */
  lemma HeadPlaceholders(s: string)
    requires s == "UPDATE expenses SET "
    ensures Occurrences(s, '%') == 0
  {
    NoOccurrences(s, '%');
  }

  /** The WHERE clause holds one `%`. */
  lemma TailPlaceholders(s: string)
    requires s == " WHERE id=%s"
    ensures Occurrences(s, '%') == 1
  {
    var w, p := s[..10], s[10..];
    assert s == w + p;
    OccurrencesAppend(w, p, '%');
    NoOccurrences(w, '%');
    assert p[0] == '%' && p[1..][0] == 's' && p[1..][1..] == [];
    assert Occurrences(p[1..], '%') == 0;
  }

  /** The row `UPDATE ... SET c=%s, ... WHERE id=%s` leaves behind: each
      listed column takes its parameter, in order. */
  function Assign(row: map<string, Json>, columns: seq<string>, params: seq<Param>): map<string, Json>
    requires |params| >= |columns|
    requires forall i :: 0 <= i < |columns| ==> params[i].Value?
    decreases |columns|
  {
    if columns == [] then row
    else Assign(row[columns[0] := params[0].v], columns[1..], params[1..])
  }

  /** Applying the update plan to a stored row overwrites exactly the
      updatable fields the body holds, with the body's values; every other
      field of the row is unchanged. */
  lemma UpdateOverwritesPresentFields(id: nat, body: Option<Body>, row: map<string, Json>)
    requires UpdateExpense(id, body).Update?
    ensures var u := UpdateExpense(id, body);
      var data := BodyOf(body);
      Assign(row, u.columns, u.params) == row + map c | c in data && c in Updatable :: data[c]
  {
    var data := BodyOf(body);
    var u := UpdateExpense(id, body);
    AssignValues(row, data, u.columns, u.params);
    assert (set c | c in u.columns) == (set c | c in data && c in Updatable);
  }

  lemma {:induction false} AssignValues(row: map<string, Json>, data: Body, columns: seq<string>, params: seq<Param>)
    requires |params| >= |columns|
    requires forall i :: 0 <= i < |columns| ==> columns[i] in data && params[i] == Value(data[columns[i]])
    ensures Assign(row, columns, params) == row + map c | c in columns :: data[c]
    decreases |columns|
  {
    if columns != [] {
      var c := columns[0];
      var rest := columns[1..];
      assert forall i :: 0 <= i < |rest| ==> rest[i] == columns[i + 1];
      AssignValues(row[c := data[c]], data, rest, params[1..]);
      assert forall x :: x in columns <==> x == c || x in rest;
      OverrideFirst(row, data, c, rest, columns);
    }
  }

  /** Writing the first column and then the rest is writing them all. */
  lemma OverrideFirst(row: map<string, Json>, data: Body, c: string, rest: seq<string>, columns: seq<string>)
    requires c in data && forall x :: x in rest ==> x in data
    requires forall x :: x in columns <==> x == c || x in rest
    ensures row[c := data[c]] + (map x | x in rest :: data[x]) == row + (map x | x in columns :: data[x])
  {
  }

  /** A body holding amount and title, in either order, sets title before
      amount. */
  lemma TitleAndAmountStatement(id: nat, title: string, amount: real)
    requires amount >= 0.0
    ensures var body := map["amount" := JNumber(amount), "title" := JString(title)];
      var u := UpdateExpense(id, Some(body));
      && u == Update(["title", "amount"], [Value(JString(title)), Value(JNumber(amount)), Id(id)])
      && UpdateStatement(u.columns) == "UPDATE expenses SET title=%s, amount=%s WHERE id=%s"
  {
    var body := map["amount" := JNumber(amount), "title" := JString(title)];
    TitleAndAmountValid(title, amount);
    TitleAndAmountColumns(body);
    TitleAndAmountSql();
  }

  lemma TitleAndAmountSql()
    ensures UpdateStatement(["title", "amount"]) == "UPDATE expenses SET title=%s, amount=%s WHERE id=%s"
  {
    assert SetItem("title") == "title=%s" && SetItem("amount") == "amount=%s";
    var items := SetItems(["title", "amount"]);
    assert items == ["title=%s", "amount=%s"];
    assert Join(items, ", ") == "title=%s, amount=%s" by {
      assert items[1..] == ["amount=%s"];
    }
  }

  lemma TitleAndAmountValid(title: string, amount: real)
    requires amount >= 0.0
    ensures ValidatePayload(map["amount" := JNumber(amount), "title" := JString(title)], true) == map[]
  {
    var body := map["amount" := JNumber(amount), "title" := JString(title)];
    assert AmountError(JNumber(amount)).None?;
    assert forall k :: FieldError(body, true, k).None?;
  }

  lemma TitleAndAmountColumns(body: Body)
    requires body.Keys == {"amount", "title"}
    ensures PresentColumns(body, Updatable) == ["title", "amount"]
  {
    var tail := Updatable[2..];
    assert tail == ["date", "category", "type"];
    assert PresentColumns(body, tail) == [];
    assert Updatable[1..] == ["amount"] + tail;
  }
}

=== FILE: sorting.dfy ===
/** The order JavaScript's default `Array.prototype.sort` puts strings in,
    and the two collection idioms the client relies on: the insertion-ordered
    keys of a `Map` or `Set`, and sorting those keys. */
module Sorting {

  /** Lexicographic order by character code, the comparison the default
      `sort()` applies to strings. A proper prefix comes first. */
  predicate Less(a: string, b: string) {
    if |a| == 0 then |b| > 0
    else if |b| == 0 then false
    else if a[0] != b[0] then a[0] < b[0]
    else Less(a[1..], b[1..])
  }

  lemma {:induction false} LessIrreflexive(a: string)
    ensures !Less(a, a)
  {
    if |a| > 0 {
      LessIrreflexive(a[1..]);
    }
  }

  lemma {:induction false} LessTransitive(a: string, b: string, c: string)
    requires Less(a, b) && Less(b, c)
    ensures Less(a, c)
  {
    if |a| > 0 && a[0] == b[0] && b[0] == c[0] {
      LessTransitive(a[1..], b[1..], c[1..]);
    }
  }

  lemma {:induction false} LessTotal(a: string, b: string)
    ensures a == b || Less(a, b) || Less(b, a)
  {
    if |a| > 0 && |b| > 0 && a[0] == b[0] {
      LessTotal(a[1..], b[1..]);
      if a[1..] == b[1..] {
        assert a == [a[0]] + a[1..] && b == [b[0]] + b[1..];
      }
    }
  }

  lemma LessAsymmetric(a: string, b: string)
    requires Less(a, b)
    ensures !Less(b, a)
  {
    if Less(b, a) {
      LessTransitive(a, b, a);
      LessIrreflexive(a);
    }
  }

  /** Ascending with no repeated element. */
  predicate StrictlySorted(s: seq<string>) {
    forall i, j :: 0 <= i < j < |s| ==> Less(s[i], s[j])
  }

  predicate Distinct<T(==)>(s: seq<T>) {
    forall i, j :: 0 <= i < j < |s| ==> s[i] != s[j]
  }

  lemma StrictlySortedIsDistinct(s: seq<string>)
    requires StrictlySorted(s)
    ensures Distinct(s)
  {
    forall i, j | 0 <= i < j < |s| ensures s[i] != s[j] {
      LessIrreflexive(s[i]);
    }
  }

  /** Places `x` into a strictly sorted sequence that lacks it. */
  function Insert(s: seq<string>, x: string): (r: seq<string>)
    requires StrictlySorted(s) && x !in s
    ensures StrictlySorted(r)
    ensures |r| == |s| + 1
    ensures forall y :: y in r <==> y in s || y == x
  {
    if s == [] then [x]
    else if Less(x, s[0]) then
      assert forall j :: 0 < j < |s| ==> Less(x, s[j]) by {
        forall j | 0 < j < |s| ensures Less(x, s[j]) { LessTransitive(x, s[0], s[j]); }
      }
      [x] + s
    else
      LessTotal(x, s[0]);
      var rest := Insert(s[1..], x);
      assert forall y :: y in rest ==> Less(s[0], y);
      [s[0]] + rest
  }

  /** `keys.sort()` for keys without repetitions: the same elements, in
      strictly ascending order. */
  function SortDistinct(keys: seq<string>): (r: seq<string>)
    requires Distinct(keys)
    ensures StrictlySorted(r)
    ensures |r| == |keys|
    ensures forall y :: y in r <==> y in keys
  {
    if keys == [] then []
    else
      var init := keys[..|keys| - 1];
      assert forall y :: y in keys <==> y in init || y == keys[|keys| - 1];
      Insert(SortDistinct(init), keys[|keys| - 1])
  }

  /** A strictly sorted sequence is determined by its elements. */
  lemma {:induction false} SortedUnique(a: seq<string>, b: seq<string>)
    requires StrictlySorted(a) && StrictlySorted(b)
    requires forall y :: y in a <==> y in b
    ensures a == b
  {
    if |a| + |b| > 0 {
      assert a != [] ==> a[0] in b;
      assert b != [] ==> b[0] in a;
      assert a[0] == b[0] by {
        assert b[0] in a && a[0] in b;
        var i :| 0 <= i < |a| && a[i] == b[0];
        var j :| 0 <= j < |b| && b[j] == a[0];
        if i > 0 && j > 0 {
          LessAsymmetric(a[0], a[i]);
        }
      }
      assert a == [a[0]] + a[1..] && b == [b[0]] + b[1..];
      forall y ensures y in a[1..] <==> y in b[1..] {
        if y in a[1..] {
          var i :| 1 <= i < |a| && a[i] == y;
          LessIrreflexive(y);
          assert y in b;
        }
        if y in b[1..] {
          var j :| 1 <= j < |b| && b[j] == y;
          LessIrreflexive(y);
          assert y in a;
        }
      }
      SortedUnique(a[1..], b[1..]);
      assert a == [a[0]] + a[1..] && b == [b[0]] + b[1..];
    }
  }

  /** The keys of a JavaScript `Map` or `Set` filled from `s`: each element
      once, in order of first appearance. */
  function Dedupe(s: seq<string>): (r: seq<string>)
    ensures Distinct(r)
    ensures |r| <= |s|
    ensures forall y :: y in r <==> y in s
  {
    if s == [] then []
    else
      var init := Dedupe(s[..|s| - 1]);
      var last := s[|s| - 1];
      assert forall y :: y in s <==> y in s[..|s| - 1] || y == last;
      if last in init then init else init + [last]
  }
}

=== FILE: text.dfy ===
/** Character classes and string helpers shared by the browser client and the
    Python backend: whitespace as each language defines it, trimming, and
    prefix tests. */
module Text {

  /** Whose definition of "whitespace" a trim follows. JavaScript's
      `String.prototype.trim` and Python's `str.strip` disagree on a few
      code points (U+001C..U+001F, U+0085, U+FEFF). Python's `float()` strips
      less than `str.strip`: it keeps ASCII characters as they are and then
      strips only tab, line feed, vertical tab, form feed, carriage return
      and space, while non-ASCII whitespace is turned into a space first. */
  datatype Whitespace = JsWhitespace | PyWhitespace | FloatWhitespace

  /** The space separators (general category Zs) of Unicode. */
  predicate IsSpaceSeparator(c: char) {
    c == ' ' || c == '\U{A0}' || c == '\U{1680}' || ('\U{2000}' <= c <= '\U{200A}')
    || c == '\U{202F}' || c == '\U{205F}' || c == '\U{3000}'
  }

  /** JavaScript WhiteSpace and LineTerminator code points; Python
      `str.isspace()` code points; those less the information separators
      U+001C..U+001F for `float()`. */
  predicate IsSpace(c: char, ws: Whitespace) {
    match ws
    case JsWhitespace =>
      c == '\t' || c == '\n' || c == '\U{B}' || c == '\U{C}' || c == '\r'
      || c == '\U{FEFF}' || c == '\U{2028}' || c == '\U{2029}' || IsSpaceSeparator(c)
    case PyWhitespace =>
      ('\t' <= c <= '\r') || ('\U{1C}' <= c <= '\U{1F}') || c == '\U{85}'
      || c == '\U{2028}' || c == '\U{2029}' || IsSpaceSeparator(c)
    case FloatWhitespace =>
      ('\t' <= c <= '\r') || c == '\U{85}'
      || c == '\U{2028}' || c == '\U{2029}' || IsSpaceSeparator(c)
  }

  /** Every character is whitespace (this includes the empty string). */
  predicate IsBlank(s: string, ws: Whitespace) {
    forall k :: 0 <= k < |s| ==> IsSpace(s[k], ws)
  }

  /** Length of the whitespace run at the start of `s`. */
  function LeadingSpaces(s: string, ws: Whitespace): (n: nat)
    ensures n <= |s|
    ensures forall k :: 0 <= k < n ==> IsSpace(s[k], ws)
    ensures n < |s| ==> !IsSpace(s[n], ws)
  {
    if |s| == 0 || !IsSpace(s[0], ws) then 0 else 1 + LeadingSpaces(s[1..], ws)
  }

  /** A blank prefix adds its length to the leading whitespace run. */
  lemma {:induction false} LeadingSpacesAfterBlank(a: string, s: string, ws: Whitespace)
    requires IsBlank(a, ws)
    ensures LeadingSpaces(a + s, ws) == |a| + LeadingSpaces(s, ws)
  {
    if a == [] {
      assert a + s == s;
    } else {
      assert (a + s)[0] == a[0] && (a + s)[1..] == a[1..] + s;
      LeadingSpacesAfterBlank(a[1..], s, ws);
    }
  }

  /** Length of the whitespace run at the end of `s`. */
  function TrailingSpaces(s: string, ws: Whitespace): (n: nat)
    ensures n <= |s|
    ensures forall k :: |s| - n <= k < |s| ==> IsSpace(s[k], ws)
    ensures n < |s| ==> !IsSpace(s[|s| - n - 1], ws)
  {
    if |s| == 0 || !IsSpace(s[|s| - 1], ws) then 0
    else 1 + TrailingSpaces(s[..|s| - 1], ws)
  }

  /** `s.trim()` in JavaScript, `s.strip()` in Python: `s` without its
      leading and trailing whitespace. */
  function Trim(s: string, ws: Whitespace): (r: string)
    ensures |r| <= |s|
    ensures r == [] <==> IsBlank(s, ws)
    ensures r != [] ==> !IsSpace(r[0], ws) && !IsSpace(r[|r| - 1], ws)
  {
    var n := LeadingSpaces(s, ws);
    var t := s[n..];
    var m := TrailingSpaces(t, ws);
    var r := s[n..|s| - m];
    assert r == [] ==> n == |s| by {
      if n < |s| {
        assert t[0] == s[n];
      }
    }
    assert r != [] ==> r[|r| - 1] == t[|t| - m - 1];
    r
  }

  /** `s` is its trim with whitespace on both sides. */
  lemma TrimSplit(s: string, ws: Whitespace)
    ensures var n := LeadingSpaces(s, ws);
            var r := Trim(s, ws);
            && n + |r| <= |s|
            && s == s[..n] + r + s[n + |r|..]
            && IsBlank(s[..n], ws) && IsBlank(s[n + |r|..], ws)
  {
    var n := LeadingSpaces(s, ws);
    var r := Trim(s, ws);
    TrimIsSlice(s, ws);
    TrimFollowedByBlank(s, ws);
    SplitThree(s, n, n + |r|);
    BlankPrefix(s, n, ws);
  }

  /** The trim is the slice of `s` after its leading whitespace. */
  lemma TrimIsSlice(s: string, ws: Whitespace)
    ensures var n := LeadingSpaces(s, ws);
            var r := Trim(s, ws);
            n + |r| <= |s| && r == s[n..n + |r|]
  {
  }

  /** Only whitespace follows the trim. */
  lemma TrimFollowedByBlank(s: string, ws: Whitespace)
    ensures var n := LeadingSpaces(s, ws);
            var r := Trim(s, ws);
            n + |r| <= |s| && IsBlank(s[n + |r|..], ws)
  {
    var n := LeadingSpaces(s, ws);
    var m := TrailingSpaces(s[n..], ws);
    assert n + |Trim(s, ws)| == |s| - m;
    TrailingBlank(s, n, ws);
  }

  /** The whitespace run that ends `s[n..]` ends `s` too. */
  lemma TrailingBlank(s: string, n: nat, ws: Whitespace)
    requires n <= |s|
    ensures TrailingSpaces(s[n..], ws) <= |s| - n
    ensures IsBlank(s[|s| - TrailingSpaces(s[n..], ws)..], ws)
  {
    var t := s[n..];
    var m := TrailingSpaces(t, ws);
    var tail := s[|s| - m..];
    forall k | 0 <= k < |tail| ensures IsSpace(tail[k], ws) {
      assert tail[k] == t[|t| - m + k];
    }
  }

  lemma SplitThree<T>(s: seq<T>, i: nat, j: nat)
    requires i <= j <= |s|
    ensures s == s[..i] + s[i..j] + s[j..]
  {
  }

  lemma BlankPrefix(s: string, n: nat, ws: Whitespace)
    requires n <= |s|
    requires forall k :: 0 <= k < n ==> IsSpace(s[k], ws)
    ensures IsBlank(s[..n], ws)
  {
    forall k | 0 <= k < n ensures IsSpace(s[..n][k], ws) {
      assert s[..n][k] == s[k];
    }
  }

  /** A string split into blank padding around a core that neither starts
      nor ends with whitespace trims to exactly that core. */
  lemma TrimUnique(a: string, r: string, b: string, ws: Whitespace)
    requires IsBlank(a, ws) && IsBlank(b, ws)
    requires r != [] ==> !IsSpace(r[0], ws) && !IsSpace(r[|r| - 1], ws)
    ensures Trim(a + r + b, ws) == r
  {
    var s := a + r + b;
    if r == [] {
      assert IsBlank(s, ws) by {
        forall k | 0 <= k < |s| ensures IsSpace(s[k], ws) {
          if k < |a| { assert s[k] == a[k]; } else { assert s[k] == b[k - |a|]; }
        }
      }
    } else {
      var n := LeadingSpaces(s, ws);
      assert s[|a|] == r[0];
      assert n == |a|;
      var t := s[n..];
      assert t == r + b;
      var m := TrailingSpaces(t, ws);
      assert t[|t| - |b| - 1] == r[|r| - 1];
      assert m == |b|;
      assert t[..|t| - m] == r;
    }
  }

  lemma BlankConcat(a: string, b: string, ws: Whitespace)
    requires IsBlank(a, ws) && IsBlank(b, ws)
    ensures IsBlank(a + b, ws)
  {
    assert forall k :: 0 <= k < |a + b| ==> (a + b)[k] == if k < |a| then a[k] else b[k - |a|];
  }

  /** Trimming ignores any amount of whitespace around a string. */
  lemma TrimIgnoresPadding(a: string, t: string, b: string, ws: Whitespace)
    requires IsBlank(a, ws) && IsBlank(b, ws)
    ensures Trim(a + t + b, ws) == Trim(t, ws)
  {
    TrimSplit(t, ws);
    var n := LeadingSpaces(t, ws);
    var r := Trim(t, ws);
    var t1, t2 := t[..n], t[n + |r|..];
    BlankConcat(a, t1, ws);
    BlankConcat(t2, b, ws);
    Regroup(a, t1, r, t2, b);
    TrimUnique(a + t1, r, t2 + b, ws);
  }

  lemma Regroup<T>(a: seq<T>, x: seq<T>, y: seq<T>, z: seq<T>, b: seq<T>)
    ensures a + (x + y + z) + b == (a + x) + y + (z + b)
  {
  }

  /** Trimming twice is trimming once. */
  lemma TrimIdempotent(s: string, ws: Whitespace)
    ensures Trim(Trim(s, ws), ws) == Trim(s, ws)
  {
    var r := Trim(s, ws);
    assert [] + r + [] == r;
    TrimUnique([], r, [], ws);
  }

  predicate StartsWith(s: string, p: string) {
    |p| <= |s| && s[..|p|] == p
  }

  predicate EndsWith(s: string, p: string) {
    |p| <= |s| && s[|s| - |p|..] == p
  }

  /** `s.slice(0, n)` in JavaScript: the first `n` characters, or all of
      `s` when it is shorter. */
  function Take(s: string, n: nat): (r: string)
    ensures |r| == if |s| < n then |s| else n
    ensures StartsWith(s, r)
    ensures r == [] <==> s == [] || n == 0
  {
    if |s| <= n then s else s[..n]
  }

  /** An ASCII decimal digit; JavaScript's `\d` and the number grammars of
      both languages use these. */
  predicate IsDigit(c: char) {
    '0' <= c <= '9'
  }

  predicate AllDigits(s: string) {
    forall k :: 0 <= k < |s| ==> IsDigit(s[k])
  }

  function DigitValue(c: char): (d: nat)
    requires IsDigit(c)
    ensures d < 10
  {
    c as int - '0' as int
  }

  /** The number a run of decimal digits spells. */
  function DigitsValue(s: string): nat
    requires AllDigits(s)
  {
    if s == [] then 0 else 10 * DigitsValue(s[..|s| - 1]) + DigitValue(s[|s| - 1])
  }

  /** ASCII lower-casing, as case-insensitive matching in both languages
      applies it to the letters these grammars use. */
  function LowerAscii(c: char): char {
    if 'A' <= c <= 'Z' then (c as int + 32) as char else c
  }
}

=== FILE: timeseries.dfy ===
/** `buildTimeSeries` of the browser client: the monthly income, expense and
    net series behind the "type over time" and "net over time" charts. */
module TimeSeries {
  import opened Wrappers
  import opened Text
  import opened Sorting
  import opened Records

  /** `(e.date || '').slice(0, 7)`: the `YYYY-MM` label of a record, empty
      when the record has no date. */
  function MonthOf(e: Expense): string {
    Take(e.date, 7)
  }

  /** `Number(e.amount) || 0`: a non-numeric amount counts as zero. */
  function AmountOrZero(e: Expense): real {
    e.amount.GetOr(0.0)
  }

  predicate IsIncome(e: Expense) {
    e.kind == "income"
  }

  /** The months a series over `entries` must cover: every non-empty label. */
  function Months(entries: seq<Expense>): set<string> {
    set e | e in entries && MonthOf(e) != "" :: MonthOf(e)
  }

  /** What one record adds to month `m` on the income side (`income`) or on
      the expense side (`!income`). Everything that is not `income` is an
      expense. */
  function Share(e: Expense, m: string, income: bool): real {
    if MonthOf(e) == m && IsIncome(e) == income then AmountOrZero(e) else 0.0
  }

  /** The sum of the shares of all records in month `m`. */
  function MonthTotal(entries: seq<Expense>, m: string, income: bool): real {
    if entries == [] then 0.0
    else MonthTotal(entries[..|entries| - 1], m, income) + Share(entries[|entries| - 1], m, income)
  }

  datatype Totals = Totals(income: real, expense: real)

  /** The `Map` the loop fills: its keys in insertion order, and the running
      totals per key. */
  datatype MonthTable = MonthTable(keys: seq<string>, totals: map<string, Totals>)

  /** One iteration of the loop over the records. */
  function Tally(t: MonthTable, e: Expense): MonthTable {
    var ym := MonthOf(e);
    if ym == "" then t
    else
      var keys := if ym in t.totals then t.keys else t.keys + [ym];
      var cur := if ym in t.totals then t.totals[ym] else Totals(0.0, 0.0);
      var upd :=
        if IsIncome(e) then Totals(cur.income + AmountOrZero(e), cur.expense)
        else Totals(cur.income, cur.expense + AmountOrZero(e));
      MonthTable(keys, t.totals[ym := upd])
  }

  /** One iteration adds the record's share to its own month and leaves the
      other months alone. */
  lemma TallyAddsShare(t: MonthTable, e: Expense)
    requires forall m :: m in t.keys <==> m in t.totals
    requires "" !in t.totals
    ensures var t' := Tally(t, e);
      && (forall m :: m in t'.keys <==> m in t'.totals)
      && (forall m :: m in t'.totals <==> m in t.totals || (m == MonthOf(e) && m != ""))
      && "" !in t'.totals
      && (Distinct(t.keys) ==> Distinct(t'.keys))
      && (forall m :: m in t'.totals ==>
           t'.totals[m].income == (if m in t.totals then t.totals[m].income else 0.0) + Share(e, m, true))
      && (forall m :: m in t'.totals ==>
           t'.totals[m].expense == (if m in t.totals then t.totals[m].expense else 0.0) + Share(e, m, false))
  {
  }

  /** A month no record falls into has zero totals. */
  lemma {:induction false} MonthTotalOutside(entries: seq<Expense>, m: string, income: bool)
    requires m !in Months(entries) && m != ""
    ensures MonthTotal(entries, m, income) == 0.0
  {
    if entries != [] {
      var init, e := entries[..|entries| - 1], entries[|entries| - 1];
      assert entries == init + [e];
      MonthsSnoc(init, e);
      MonthTotalOutside(init, m, income);
    }
  }

  lemma MonthsSnoc(init: seq<Expense>, e: Expense)
    ensures Months(init + [e]) == Months(init) + (if MonthOf(e) == "" then {} else {MonthOf(e)})
  {
    var s := init + [e];
    assert forall x :: x in s <==> x in init || x == e;
  }

  /** The loop over all records: the table holds exactly the months of the
      records, each once, with the income and expense totals of that month. */
  function Accumulate(entries: seq<Expense>): (t: MonthTable)
    ensures TableOf(t, entries)
  {
    if entries == [] then MonthTable([], map[])
    else
      var init := entries[..|entries| - 1];
      var e := entries[|entries| - 1];
      assert entries == init + [e];
      TallyExtendsTable(Accumulate(init), init, e);
      Tally(Accumulate(init), e)
  }

  /** The non-empty month labels of `entries`, one per dated record, in
      record order. */
  function MonthLabels(entries: seq<Expense>): seq<string> {
    if entries == [] then []
    else
      var ym := MonthOf(entries[|entries| - 1]);
      MonthLabels(entries[..|entries| - 1]) + (if ym == "" then [] else [ym])
  }

  /** A `Map` iterates its keys in insertion order, so the keys of the
      table are the dated months in order of first appearance. */
  lemma {:induction false} AccumulateKeyOrder(entries: seq<Expense>)
    ensures Accumulate(entries).keys == Dedupe(MonthLabels(entries))
  {
    if entries != [] {
      var init := entries[..|entries| - 1];
      var e := entries[|entries| - 1];
      assert entries == init + [e];
      AccumulateKeyOrder(init);
      TallyKeyOrder(Accumulate(init), init, e);
    }
  }

  /** One step of the loop appends the record's month to the keys exactly
      when the month is new. */
  lemma TallyKeyOrder(prev: MonthTable, init: seq<Expense>, e: Expense)
    requires TableOf(prev, init)
    requires prev.keys == Dedupe(MonthLabels(init))
    ensures Tally(prev, e).keys == Dedupe(MonthLabels(init + [e]))
  {
    var s := init + [e];
    assert s[..|s| - 1] == init;
    var ym := MonthOf(e);
    if ym == "" {
      assert MonthLabels(s) == MonthLabels(init) + [] == MonthLabels(init);
    } else {
      var labels := MonthLabels(init) + [ym];
      assert MonthLabels(s) == labels;
      assert labels[..|labels| - 1] == MonthLabels(init);
      assert ym in prev.totals <==> ym in prev.keys;
    }
  }

  /** `t` is the table of `entries`: exactly their months, each key once,
      with the income and expense totals of that month. */
  ghost predicate TableOf(t: MonthTable, entries: seq<Expense>) {
    && Distinct(t.keys)
    && (forall m :: m in t.keys <==> m in t.totals)
    && (forall m :: m in t.totals <==> m in Months(entries))
    && (forall m :: m in t.totals ==>
          t.totals[m] == Totals(MonthTotal(entries, m, true), MonthTotal(entries, m, false)))
  }

  lemma TallyExtendsTable(prev: MonthTable, init: seq<Expense>, e: Expense)
    requires TableOf(prev, init)
    ensures TableOf(Tally(prev, e), init + [e])
  {
    var entries := init + [e];
    var t := Tally(prev, e);
    TallyAddsShare(prev, e);
    assert forall m :: m in t.totals <==> m in Months(entries) by {
      MonthsSnoc(init, e);
    }
    assert entries[..|entries| - 1] == init;
    forall m | m in t.totals
      ensures t.totals[m] == Totals(MonthTotal(entries, m, true), MonthTotal(entries, m, false))
    {
      if m !in prev.totals {
        MonthTotalOutside(init, m, true);
        MonthTotalOutside(init, m, false);
      }
    }
  }

  /** The parallel sequences `buildTimeSeries` returns. */
  datatype Series = Series(labels: seq<string>, incomes: seq<real>, expenses: seq<real>, net: seq<real>)

  /** The labels are the months of the dated records in ascending order,
      each once; position `i` of the other three sequences belongs to
      `labels[i]`. */
  function BuildTimeSeries(entries: seq<Expense>): (ts: Series)
    ensures |ts.incomes| == |ts.labels| && |ts.expenses| == |ts.labels| && |ts.net| == |ts.labels|
    ensures StrictlySorted(ts.labels)
    ensures forall m :: m in ts.labels <==> m in Months(entries)
    ensures forall i :: 0 <= i < |ts.labels| ==>
      && ts.incomes[i] == MonthTotal(entries, ts.labels[i], true)
      && ts.expenses[i] == MonthTotal(entries, ts.labels[i], false)
      && ts.net[i] == ts.incomes[i] - ts.expenses[i]
  {
    var t := Accumulate(entries);
    var labels := SortDistinct(t.keys);
    var incomes := seq(|labels|, i requires 0 <= i < |labels| => t.totals[labels[i]].income);
    var expenses := seq(|labels|, i requires 0 <= i < |labels| => t.totals[labels[i]].expense);
    var net := seq(|labels|, i requires 0 <= i < |labels| => incomes[i] - expenses[i]);
    Series(labels, incomes, expenses, net)
  }

  /** Two record lists with the same months and the same monthly totals give
      the same series. */
  lemma SeriesDeterminedByTotals(a: seq<Expense>, b: seq<Expense>)
    requires Months(a) == Months(b)
    requires forall m, income :: m in Months(a) ==> MonthTotal(a, m, income) == MonthTotal(b, m, income)
    ensures BuildTimeSeries(a) == BuildTimeSeries(b)
  {
    var sa, sb := BuildTimeSeries(a), BuildTimeSeries(b);
    SortedUnique(sa.labels, sb.labels);
    ColumnsAgree(a, b);
    assert sa.net == sb.net;
  }

  /** Equal labels and equal monthly totals give equal income and expense
      columns. */
  lemma ColumnsAgree(a: seq<Expense>, b: seq<Expense>)
    requires BuildTimeSeries(a).labels == BuildTimeSeries(b).labels
    requires forall m, income :: m in Months(a) ==> MonthTotal(a, m, income) == MonthTotal(b, m, income)
    ensures BuildTimeSeries(a).incomes == BuildTimeSeries(b).incomes
    ensures BuildTimeSeries(a).expenses == BuildTimeSeries(b).expenses
  {
    var sa, sb := BuildTimeSeries(a), BuildTimeSeries(b);
    forall i | 0 <= i < |sa.labels|
      ensures sa.incomes[i] == sb.incomes[i] && sa.expenses[i] == sb.expenses[i]
    {
      EntryAgrees(a, b, i);
    }
  }

  /** One position of the income and expense columns. */
  lemma EntryAgrees(a: seq<Expense>, b: seq<Expense>, i: nat)
    requires BuildTimeSeries(a).labels == BuildTimeSeries(b).labels
    requires i < |BuildTimeSeries(a).labels|
    requires forall m, income :: m in Months(a) ==> MonthTotal(a, m, income) == MonthTotal(b, m, income)
    ensures BuildTimeSeries(a).incomes[i] == BuildTimeSeries(b).incomes[i]
    ensures BuildTimeSeries(a).expenses[i] == BuildTimeSeries(b).expenses[i]
  {
    var m := BuildTimeSeries(a).labels[i];
    assert m in Months(a);
    assert MonthTotal(a, m, true) == MonthTotal(b, m, true);
    assert MonthTotal(a, m, false) == MonthTotal(b, m, false);
  }

  lemma {:induction false} MonthTotalAppend(a: seq<Expense>, b: seq<Expense>, m: string, income: bool)
    ensures MonthTotal(a + b, m, income) == MonthTotal(a, m, income) + MonthTotal(b, m, income)
    decreases |b|
  {
    if b == [] {
      assert a + b == a;
    } else {
      var init := b[..|b| - 1];
      assert (a + b)[..|a + b| - 1] == a + init;
      assert (a + b)[|a + b| - 1] == b[|b| - 1];
      MonthTotalAppend(a, init, m, income);
    }
  }

  /** Taking one record out of a list takes its share out of the total. */
  lemma MonthTotalRemove(b: seq<Expense>, i: nat, m: string, income: bool)
    requires i < |b|
    ensures MonthTotal(b, m, income) == MonthTotal(b[..i] + b[i + 1..], m, income) + Share(b[i], m, income)
  {
    var left, x, right := b[..i], b[i], b[i + 1..];
    assert b == (left + [x]) + right;
    MonthTotalAppend(left + [x], right, m, income);
    MonthTotalAppend(left, [x], m, income);
    MonthTotalAppend(left, right, m, income);
    assert [x][..0] == [];
  }

  /** Monthly totals do not depend on the order of the records. */
  lemma {:induction false} MonthTotalPermutation(a: seq<Expense>, b: seq<Expense>, m: string, income: bool)
    requires multiset(a) == multiset(b)
    ensures MonthTotal(a, m, income) == MonthTotal(b, m, income)
    decreases |a|
  {
    if a == [] {
      assert |b| == |multiset(b)| == 0;
    } else {
      var init, x := a[..|a| - 1], a[|a| - 1];
      assert a == init + [x];
      assert x in multiset(b);
      var i :| 0 <= i < |b| && b[i] == x;
      var rest := b[..i] + b[i + 1..];
      assert b == b[..i] + [x] + b[i + 1..];
      assert multiset(b) == multiset(b[..i]) + multiset{x} + multiset(b[i + 1..]);
      assert multiset(a) == multiset(init) + multiset{x};
      assert multiset(rest) == multiset(b[..i]) + multiset(b[i + 1..]);
      assert multiset(rest) == multiset(b) - multiset{x};
      assert multiset(init) == multiset(a) - multiset{x};
      MonthTotalPermutation(init, rest, m, income);
      MonthTotalRemove(b, i, m, income);
    }
  }

  lemma MonthsSameElements(a: seq<Expense>, b: seq<Expense>)
    requires forall e :: e in a <==> e in b
    ensures Months(a) == Months(b)
  {
  }

  /** The series depends only on the multiset of records, not on their
      order. */
  lemma BuildTimeSeriesOrderIndependent(a: seq<Expense>, b: seq<Expense>)
    requires multiset(a) == multiset(b)
    ensures BuildTimeSeries(a) == BuildTimeSeries(b)
  {
    assert forall e :: e in a <==> e in multiset(a);
    MonthsSameElements(a, b);
    forall m, income | m in Months(a) ensures MonthTotal(a, m, income) == MonthTotal(b, m, income) {
      MonthTotalPermutation(a, b, m, income);
    }
    SeriesDeterminedByTotals(a, b);
  }

  /** A record with an empty or missing date changes no month and no
      total, wherever it stands in the list. */
  lemma UndatedRecordIgnored(a: seq<Expense>, e: Expense, b: seq<Expense>)
    requires e.date == ""
    ensures BuildTimeSeries(a + [e] + b) == BuildTimeSeries(a + b)
  {
    var s, t := a + [e] + b, a + b;
    assert forall x :: x in s <==> x in t || x == e;
    assert Months(s) == Months(t);
    forall m, income | m in Months(s) ensures MonthTotal(s, m, income) == MonthTotal(t, m, income) {
      MonthTotalAppend(a + [e], b, m, income);
      MonthTotalAppend(a, [e], m, income);
      MonthTotalAppend(a, b, m, income);
      assert [e][..0] == [];
    }
    SeriesDeterminedByTotals(s, t);
  }

  /** A record whose amount is not a number, in a month that already has a
      label, leaves the series unchanged. */
  lemma NonNumericAmountIgnored(a: seq<Expense>, e: Expense)
    requires e.amount.None?
    requires MonthOf(e) == "" || MonthOf(e) in Months(a)
    ensures BuildTimeSeries(a + [e]) == BuildTimeSeries(a)
  {
    MonthsSnoc(a, e);
    assert (a + [e])[..|a|] == a;
    SeriesDeterminedByTotals(a + [e], a);
  }

  /** Two March records, one expense and one income, make one label. */
  lemma CoffeeAndSalary(coffee: Expense, salary: Expense)
    requires coffee == Expense("1", "Coffee", Some(4.5), "2024-03-02", "Food", "expense")
    requires salary == Expense("2", "Salary", Some(2000.0), "2024-03-01", "Work", "income")
    ensures BuildTimeSeries([coffee, salary]) == Series(["2024-03"], [2000.0], [4.5], [1995.5])
  {
    var march := "2024-03";
    assert MonthOf(coffee) == march by { assert coffee.date[..7] == march; }
    assert MonthOf(salary) == march by { assert salary.date[..7] == march; }
    assert !IsIncome(coffee) && IsIncome(salary);
    OneMonthSeries(coffee, salary, march);
    var ts := BuildTimeSeries([coffee, salary]);
    assert ts.incomes == [2000.0] && ts.expenses == [4.5];
    assert |ts.net| == 1 && ts.net[0] == 1995.5;
  }

  lemma OneMonthSeries(x: Expense, y: Expense, m: string)
    requires m != "" && MonthOf(x) == m && MonthOf(y) == m
    ensures BuildTimeSeries([x, y]).labels == [m]
    ensures BuildTimeSeries([x, y]).incomes == [Share(x, m, true) + Share(y, m, true)]
    ensures BuildTimeSeries([x, y]).expenses == [Share(x, m, false) + Share(y, m, false)]
  {
    var entries := [x, y];
    assert Months(entries) == {m} by {
      assert forall e :: e in entries <==> e == x || e == y;
    }
    MonthTotalPair(x, y, m, true);
    MonthTotalPair(x, y, m, false);
    var ts := BuildTimeSeries(entries);
    SortedUnique(ts.labels, [m]);
  }

  lemma MonthTotalPair(x: Expense, y: Expense, m: string, income: bool)
    ensures MonthTotal([x, y], m, income) == Share(x, m, income) + Share(y, m, income)
  {
    assert [x, y][..1] == [x] && [x][..0] == [];
    assert MonthTotal([x], m, income) == MonthTotal([], m, income) + Share(x, m, income);
  }
}

=== FILE: wrappers.dfy ===
/** The optional value used wherever the source has `undefined`, `null`,
    "not found" or a failed parse. */
module Wrappers {

  datatype Option<+T> = None | Some(value: T) {

    /** The contained value, or `default` when there is none. */
    function GetOr(default: T): T {
      match this
      case Some(v) => v
      case None => default
    }
  }
}
